=== FILE: README.md ===
# go-rest core in Dafny

This project models the core of the FTChinese `go-rest` Go library: the
helpers a REST service shares between handlers.

- **The enum family.** Twelve integer-backed enumerations (`Cycle`,
  `PayMethod`, `Tier`, `Gender`, `LoginMethod`, `Platform`, `Environment`,
  `SubsStatus`, `OrderKind`, `SnapshotReason`, `SubsSource`, `AccountKind`).
  Each one converts between an ordinal and its label in four places: the
  `ParseX` function and `String()`, JSON through `MarshalJSON`/`UnmarshalJSON`,
  and SQL through `Scan`/`Value`. Some also have display texts
  (`StringCN`, `StringEN`, `StringSC`).
- **Semantic versions.** Parsing "major.minor.patch" and comparing versions.
- **Request helpers.** The comma-joined `StringSlice` column, query-parameter
  reading and conversion, and pagination.
- **Error envelopes.** The envelopes of `render/response.go`.
- **View responses.** The status/header/body responses and client errors of
  the `view` package.

Every Go struct becomes an immutable datatype and every enum value a plain
`int` (Go lets any int inhabit an enum type), and every method becomes a pure
function. A decoder that mutates its receiver in Go
takes the receiver's previous value here, and returns the new value together
with the error.

The twelve enumerations share one implementation pattern. `EnumCodec` models
it once, as a `Table`:

- the label map;
- the decode map, including aliases such as `"PROD"`;
- the three display tables;
- the error-message suffix;
- the three per-type policies:
  - what `UnmarshalJSON` does with an unknown string (discard it, or return
    the error);
  - what `Scan` accepts;
  - when `Value` writes nil.

`WellFormed` states what every table of the package satisfies. Each type's
module fixes its table as a constant of the subset type `Codec` and states
its own behaviour in lemmas: `Text`, `Decoders` and `Encoders`.

Modules and files:

| module | file | models |
|---|---|---|
| `Wrappers`, `Errors`, `Sql` | `wrappers.dfy` | options, Go error values, `(value, error)` pairs, SQL driver values |
| `Text` | `text.dfy` | what the core uses of `strings` and `strconv`: Split, Join, TrimSpace, Atoi/ParseInt (with the digit loop of ParseUint), ParseBool, Itoa |
| `EnumCodec` | `enum_codec.dfy` | the shared enum pattern |
| `Cycle` … `AccountKind` | `enum_*.dfy` | one module per enum type |
| `Semver` | `semver.dfy` | `semver/semver.go` |
| `Params` | `param.dfy` | `param.go` |
| `Paging` | `pagination.dfy` | `pagination.go` |
| `StringSlices` | `string_slice.dfy` | `string_slice.go` |
| `Http` | `http.dfy` | status codes and `http.Header` |
| `Render` | `render_response.dfy` | `render/response.go` |
| `View` | `view.dfy` | `view/response.go`, `view/client_error.go` |

Where a test file and the code disagree, the model follows the code. In
each of the following cases the code and its test or comment disagree:

- **Tier.** `enum/tier_test.go:270-275` expects `Scan` of `"invalid"` to fail. `tier.go`
  discards the parse error, so the model gives `TierNull` with no error
  (`Tier.Decoders`).
- **PayMethod and Gender null.** `enum/pay_method_test.go:92-99` and
  `enum/gender_test.go:86-94` expect a JSON null to decode cleanly. Their `UnmarshalJSON` returns the
  parse error of `""`, so the model rejects null and keeps the previous
  value (`PayMethod.Decoders`, `Gender.Decoders`).
- **PayMethod "wechat".** The label of `PayMethodWx` is `"tenpay"`, and
  `"wechat"` does not parse (`PayMethod.Text`).
- **SubsSource error message.** `ParseSubsSource` says "is not valid
  OrderKind". The model keeps that text (`SubsSource.Text`).
- **LoginMethod null.** `login_method_test.go` names `LoginMethodNull`. The
  code's zero value is `InvalidLogin`, and that is what the model uses.

## Model

| member | source | states |
|---|---|---|
| EnumCodec.Parse | enum/tier.go:54-60 | a name parses exactly when it is in the decode table, always to a labelled ordinal; otherwise the null value with the error "<name> is not a valid …" |
| EnumCodec.String | enum/tier.go:62-69 | "" exactly for ordinals without a label; a non-empty label parses back to its own ordinal |
| EnumCodec.Localize | enum/tier.go:71-87 | display text behind a range guard (array tables) or a map lookup with "" as default (OrderKind) |
| EnumCodec.DecodeString | enum/tier.go:89-95 | `json.Unmarshal` into a string: a JSON string gives its contents, null gives "", anything else fails |
| EnumCodec.MarshalJson | enum/tier.go:103-113 | null exactly for unlabelled ordinals, otherwise a non-empty label that parses back to the ordinal |
| EnumCodec.MarshalJsonBytes | enum/tier.go:103-113 | the bytes are `null` exactly when there is no label, else the label in double quotes |
| EnumCodec.UnmarshalJson | enum/pay_method.go:89-105 | non-string JSON fails with the receiver kept; a lenient type stores the decoded ordinal, or the null value for an unknown string or JSON null; a strict type keeps the receiver and returns the input followed by " is not a valid ..." for an unknown string, so it rejects null as the bare suffix |
| EnumCodec.Scan | enum/tier.go:115-131 | NULL gives the null value; a lenient type stores the decoded ordinal of the bytes, or the null value when they are unknown; a strict type keeps the receiver and returns the bytes followed by " is not a valid ..."; strings and other driver values fail with the type's error and keep the receiver, except for LoginMethod, which decodes strings like bytes and turns every other value into the null value |
| EnumCodec.Value | enum/tier.go:133-140 | nil exactly for unlabelled ordinals (LoginMethod: only for the zero value); otherwise the String() label |
| EnumCodec.LabelsOfInjective | enum/tier.go:20-45 | the label map built from a names array of distinct names (as `tierMap` is from `tierNames`) has no empty label and no label shared by two ordinals, so String() is invertible |
| EnumCodec.Inverse | enum/tier.go:47-52 | the decode map of distinct names sends each name back to its index and nothing else, and never holds "" |
| EnumCodec.InverseListed | enum/tier.go:47-52 | a string is in the decode map exactly when it is one of the names after index 0 |
| EnumCodec.FromNamesWellFormed | enum/subs_status.go:23-55 | a table built from distinct names and proper aliases is well formed, and without aliases lists exactly the names |
| EnumCodec.ListedText | enum/order_kind.go:24-79 | for a table listing names: String gives names[x] in range and "" outside, Parse accepts exactly the listed names, each name parses to its index |
| EnumCodec.ParseNormalises | enum/environment.go:28-48 | an alias parses to an ordinal whose label parses to the same ordinal, so aliases are never written back |
| EnumCodec.LabelsDistinct | enum/tier.go:41-45 | distinct labelled ordinals have distinct labels |
| EnumCodec.JsonRoundTrip | enum/tier.go:89-113 | UnmarshalJSON of MarshalJSON restores every labelled ordinal; an unlabelled one comes back as the null value (lenient) or as an error (strict) |
| EnumCodec.SqlRoundTrip | enum/tier.go:115-140 | Scan of Value restores every labelled ordinal; other ordinals read back as the null value |
| Cycle.Text | enum/cycle.go:21-97 | ParseCycle accepts exactly "month" and "year"; String, StringCN and StringEN give the labels 月/年 and Month/Year, "" elsewhere |
| Cycle.Decoders | enum/cycle.go:99-140 | lenient UnmarshalJSON; Scan reads NULL as InvalidCycle, bytes leniently, rejects strings and others with ErrIncompatible |
| Cycle.Encoders | enum/cycle.go:113-147 | MarshalJSON is `null` and Value nil exactly for non-cycles; month and year survive the column |
| Cycle.TimeAfterACycle | enum/cycle.go:61-70 | a year plus a day or a month plus a day later; any other cycle is an error with the time unchanged |
| PayMethod.Text | enum/pay_method.go:20-87 | PayMethodWx is labelled "tenpay" and "wechat" does not parse; display texts only inside the guarded range |
| PayMethod.Decoders | enum/pay_method.go:89-138 | strict: unknown strings and null return the parse error with the receiver kept; Scan of bytes behaves as UnmarshalJSON |
| PayMethod.Encoders | enum/pay_method.go:107-147 | `null`/nil exactly for unlabelled ordinals; every method survives the column |
| Tier.Text | enum/tier.go:20-87 | "advanced" does not parse; TierVIP has a label but no display text; display texts exactly for standard and premium |
| Tier.Decoders | enum/tier.go:89-131 | lenient: Scan of "invalid" gives TierNull without error |
| Tier.Encoders | enum/tier.go:103-140 | TierNull is `null` and nil; standard and premium write their labels; every tier survives the column |
| Gender.Text | enum/gender.go:19-51 | exactly "F" and "M" parse; "f", "female" and "null" do not |
| Gender.Decoders | enum/gender.go:53-99 | strict: null and unknown strings fail with the receiver kept |
| Gender.Encoders | enum/gender.go:71-108 | `null`/nil exactly when String() is ""; both genders survive the column |
| LoginMethod.Text | enum/login_method.go:19-51 | exactly "email" and "wechat" parse; anything else gives InvalidLogin with an error |
| LoginMethod.Decoders | enum/login_method.go:53-97 | lenient everywhere: Scan accepts strings and bytes, and reads any other value as InvalidLogin |
| LoginMethod.Encoders | enum/login_method.go:68-105 | Value is nil only for InvalidLogin, and writes "" for an out-of-table ordinal |
| Platform.Text | enum/platform.go:20-55 | web, ios and android parse to ordinals 1..3; anything else is PlatformNull with an error |
| Platform.Decoders | enum/platform.go:57-99 | lenient: Scan of bytes "42" gives PlatformNull without error |
| Platform.Encoders | enum/platform.go:71-109 | `null`/nil exactly when there is no label; every platform survives the column |
| Environment.Text | enum/environment.go:17-48 | "PROD" is a decode-only alias of Production; String never gives "PROD"; parsing is case-sensitive |
| Environment.Decoders | enum/environment.go:50-88 | lenient; "PROD" decodes to Production |
| Environment.Encoders | enum/environment.go:63-97 | the canonical label is written, never the alias |
| SubsStatus.Text | enum/subs_status.go:23-81 | seven labels for ordinals 1..7; unknown input gives SubsStatusNull with an error |
| SubsStatus.ShouldCreate | enum/subs_status.go:67-73 | true only for Null or a labelled status, and never for active, incomplete or trialing |
| SubsStatus.ShouldCreateByLabel | enum/subs_status.go:67-73 | ShouldCreate holds exactly for Null and the statuses labelled canceled, incomplete_expired, past_due, unpaid |
| SubsStatus.Decoders | enum/subs_status.go:83-121 | lenient; Scan rejects non-bytes with "incompatible type to scan" |
| SubsStatus.Encoders | enum/subs_status.go:96-130 | `null`/nil exactly when there is no label; every status survives the column |
| OrderKind.Text | enum/order_kind.go:24-79 | six labels for ordinals 1..6; unknown input gives OrderKindNull with an error |
| OrderKind.Display | enum/order_kind.go:45-87 | StringSC gives a text exactly for the labelled kinds |
| OrderKind.Decoders | enum/order_kind.go:89-127 | lenient; Scan rejects non-bytes with "incompatible type to scan" |
| OrderKind.Encoders | enum/order_kind.go:102-136 | `null`/nil exactly when there is no label; every kind survives the column |
| SnapshotReason.Text | enum/snapshot_reason.go:29-84 | ten labels for ordinals 1..10; unknown input gives SnapshotReasonNull with an error |
| SnapshotReason.Decoders | enum/snapshot_reason.go:86-124 | lenient; Scan rejects non-bytes |
| SnapshotReason.Encoders | enum/snapshot_reason.go:99-134 | `null`/nil exactly when there is no label; every reason survives the column |
| SubsSource.Text | enum/subs_source.go:18-50 | exactly "retail" and "b2b" parse; the error text names OrderKind |
| SubsSource.Decoders | enum/subs_source.go:52-90 | lenient; Scan rejects strings with "incompatible type to scan" |
| SubsSource.Encoders | enum/subs_source.go:65-99 | `null`/nil exactly for the two unlabelled cases; both sources survive the column |
| AccountKind.Text | enum/account_kind.go:19-52 | exactly "ftc", "wechat" and "linked" parse; anything else is AccountKindNull with an error |
| AccountKind.Json | enum/account_kind.go:54-76 | lenient UnmarshalJSON; a JSON round trip restores every kind and maps anything else to AccountKindNull |
| Semver.Atoi | semver/semver.go:19-23 | a piece's value when it is a decimal int64, else 0 |
| Semver.Components | semver/semver.go:17-26 | one Atoi value per '.'-separated piece, in order |
| Semver.ParseAsWritten | semver/semver.go:16-40 | the code as written fails exactly when the version has fewer than two dots; otherwise the first three pieces |
| Semver.ShortVersionPanics | semver/semver.go:28-38 | "1.2" and "7" make the code as written index past the end |
| Semver.Parse | semver/semver.go:16-40 | padded parse: agrees with the code wherever the code does not fail, and reads missing pieces as 0 |
| Semver.ShortVersionPadded | semver/semver.go:28-33 | "1.2" parses to 1.2.0 and "7" to 7.0.0 |
| Semver.ExtraPiecesIgnored | semver/semver.go:35-39 | pieces after the third change neither parse |
| Semver.ParseFormat | semver/semver.go:16-40 | parsing "major.minor.patch" written in decimal gives the version back, for both parses |
| Semver.Compare | semver/semver.go:46-58 | negative, zero or positive exactly when the first version is lexicographically before, equal to or after the second |
| Semver.Equal | semver/semver.go:61-63 | true exactly for equal versions |
| Semver.Larger | semver/semver.go:66-68 | true exactly when the second version comes first |
| Semver.Smaller | semver/semver.go:71-73 | true exactly when the first version comes first |
| Semver.CompareSwap | semver/semver.go:46-68 | swapping operands negates Compare, so Larger(a, b) is Smaller(b, a) |
| Semver.Trichotomy | semver/semver.go:46-73 | exactly one of Smaller, Equal and Larger holds |
| Semver.SmallerStrictOrder | semver/semver.go:71-73 | Smaller is irreflexive and transitive |
| StringSlices.Scan | string_slice.go:13-28 | NULL is the empty slice; bytes become comma-free pieces whose join is the input; anything else fails with the receiver kept |
| StringSlices.Value | string_slice.go:31-38 | nil exactly for an empty slice or a single empty string; otherwise a non-empty text with at least as many pieces |
| StringSlices.RoundTrip | string_slice.go:13-38 | Scan of Value restores any slice without commas, and the two nil cases read back as the empty slice |
| StringSlices.CommaSplits | string_slice.go:21-32 | worked example of CommaBreaksRoundTrip: ["a,b"] comes back as ["a", "b"] |
| StringSlices.CommaBreaksRoundTrip | string_slice.go:13-38 | any slice with a piece holding a comma does not survive Scan of Value, so comma-freedom is exactly what RoundTrip needs |
| StringSlices.StoredText | string_slice.go:21-37 | Value of a scanned non-empty text is that text |
| Text.SplitJoin | string_slice.go:21-32 | splitting the join of comma-free pieces gives the pieces back |
| Text.JoinSplit | string_slice.go:21-32 | joining the pieces of a split gives the text back |
| Params.FormGet | param.go:18 | the first value of the key, or "" |
| Params.GetQueryParam | param.go:17-24 | the value is trimmed of surrounding white space, and is "" exactly when the raw value is blank |
| Params.ToString | param.go:33-39 | the value, or the error "<key> have empty value" for an empty one |
| Params.ToInt | param.go:42-54 | the int64 value, or 0 with an error: the empty-value error for "", the range error when the digits after the sign pass 2^64-1 (whatever follows them) or the number leaves int64, and the syntax error otherwise |
| Params.RangeBeforeSyntax | param.go:47-51 | a number followed by a non-digit is a syntax error when it fits in a uint64 and a range error when it does not |
| Text.ParseInt64 | param.go:47-51 | strconv.ParseInt(s, 10, 0): succeeds exactly on a signed digit string in int64 range; a range error gives the bound on the sign's side; a syntax error exactly when the text is not a signed digit string and its leading digits do not overflow |
| Text.ParseUint64 | param.go:47-51 | the digit loop of strconv.ParseUint: a range error exactly when the leading digit run passes 2^64-1, else a syntax error for any non-digit, else the value |
| Params.ToBool | param.go:27-29 | strconv.ParseBool: its six true and six false spellings, else false with a syntax error |
| Params.BlankIsMissing | param.go:17-54 | a blank parameter reads as the empty-value error for both strings and numbers |
| Params.ToIntFormat | param.go:17-54 | a decimal int64 with white space around it reads back as that number |
| Params.TrimAround | param.go:21 | trimming white space from both sides of a text that starts and ends with a non-space gives the text |
| Params.ToBoolSpellings | param.go:27-29 | ToBool gives true exactly for 1, t, T, TRUE, true, True and false exactly for 0, f, F, FALSE, false, False |
| Paging.NewPagination | pagination.go:7-16 | pages below 1 become 1; the limit is kept |
| Paging.Normalize | pagination.go:24-32 | the result is normal (page and limit at least 1); fields already valid are kept, others take 1 and 20 |
| Paging.NormalizeIdempotent | pagination.go:24-32 | normalising twice is normalising once |
| Paging.Offset | pagination.go:35-37 | page 1 starts at 0; a normal page starts at a non-negative offset |
| Paging.OffsetTiles | pagination.go:35-37 | the next page starts one limit later, and a normal page's offset is a multiple of the limit whose quotient is page-1 |
| Paging.GetPagination | pagination.go:40-48 | page as read by ToInt, 1 unless it is an integer of at least 1; the limit is per_page as read by ToInt, 20 when that fails |
| Paging.GetPaginationDefault | pagination.go:40-48 | with no parameters: page 1, limit 20, offset 0 |
| Http.Add | view/response.go:22-28 | Header.Add appends to one key and leaves the others alone |
| Http.Set | view/response.go:31-40 | Header.Set makes the key's values exactly the one value and leaves the others alone |
| Render.ErrorText | render/response.go:41-43 | Error() text starts with "code=", ends with ", message=" and the message verbatim, and what lies between parses to the status |
| Render.ErrorTextReadsBack | render/response.go:41-43 | Error() loses nothing: the status and the whole message, commas included, can be read back |
| Render.NewResponseError | render/response.go:46-51 | the given status and message, no validation detail |
| Render.NewNotFound | render/response.go:54-56 | 404 with the message unchanged (even "") and no validation detail |
| Render.NewUnauthorized | render/response.go:59-65 | 401; an empty message becomes "Requires authorization." |
| Render.NewForbidden | render/response.go:68-70 | 403 with the message unchanged (even "") and no validation detail |
| Render.NewBadRequest | render/response.go:73-75 | 400 with the message unchanged (even ""; unlike the view package there is no default) and no validation detail |
| Render.NewUnprocessable | render/response.go:78-85 | 422 whose message is the validation error's Error() and which carries it |
| Render.NewAlreadyExists | render/response.go:89-95 | 422 "Duplicate entry" naming the field with code already_exists |
| Render.NewTooManyRequests | render/response.go:98-100 | 429 with the message unchanged (even "") and no validation detail |
| Render.NewInternalError | render/response.go:103-106 | 500 with the message unchanged (even "") and no validation detail |
| Render.NewDBError | render/response.go:112-120 | 404 with an empty message exactly for no rows; otherwise 500 with the error text |
| Render.ConstructorsGiveErrorStatus | render/response.go:54-120 | every constructor gives a 4xx or 5xx status |
| View.NewReason | view/client_error.go:34-36 | GetMessage is "Validation failed"; the exported fields are empty |
| View.NewInvalid | view/client_error.go:39-41 | GetMessage is the given text; the exported fields are empty |
| View.SetMessage | view/client_error.go:44-46 | replaces only the unexported message |
| View.GetSetMessage | view/client_error.go:44-51 | setting what was read changes nothing; only the last set counts; NewInvalid is SetMessage on NewReason |
| View.NewResponse | view/response.go:31-40 | 200, nil body, and a header holding only the JSON Content-Type |
| View.SetBody | view/response.go:16-19 | replaces the body and keeps status and header |
| View.NoCache | view/response.go:22-28 | appends no-cache, no-store, must-revalidate to Cache-Control and no-cache to Pragma; nothing else changes |
| View.NoCacheFresh | view/response.go:22-40 | a fresh response with NoCache has exactly Content-Type, Cache-Control and Pragma |
| View.NewNoContent | view/response.go:43-48 | 204, JSON header, nil body |
| View.NewNotFound | view/response.go:51-58 | 404, the JSON header, and a ClientError with the message "Not Found" |
| View.NewUnauthorized | view/response.go:61-71 | 401; an empty message becomes "Requires authorization." |
| View.NewUnauthorizedBasic | view/response.go:74-87 | 401 whose header map is exactly the literal {"WWW-Authenticate": ["Basic"]} (so no Content-Type), carrying the reason and its GetMessage |
| View.NewForbidden | view/response.go:90-97 | 403, the JSON header, and a ClientError carrying the message unchanged (even "") |
| View.NewBadRequest | view/response.go:100-111 | 400; an empty message becomes "Problems parsing JSON" |
| View.NewUnprocessable | view/response.go:114-126 | 422 carrying the reason, with the message from its exported Message |
| View.UnprocessableIgnoresGetMessage | view/response.go:74-126 | a reason made by NewReason or NewInvalid gives an empty unprocessable message, while NewUnauthorizedBasic shows its text |
| View.NewTooManyRequests | view/response.go:129-136 | 429, the JSON header, and a ClientError carrying the message unchanged (even "") |
| View.NewInternalError | view/response.go:139-147 | 500, the JSON header, and a ClientError carrying the message unchanged (even "") |
| View.NewDBFailure | view/response.go:153-161 | NewNotFound exactly for no rows; otherwise 500, the JSON header and a ClientError with the error text |
| View.ConstructorsGiveErrorStatus | view/response.go:51-161 | every error constructor gives a 4xx or 5xx status and a ClientError body |

## Left out

- Strings. A Go string is a sequence of bytes, and here it is a sequence of
  Unicode characters, so byte strings that are not valid UTF-8 cannot be
  written. Every split, trim, digit test and label comparison of the core
  gives the same answer on valid UTF-8 either way.
- I/O and the framework. Reading the HTTP request and writing the response
  are outside the model. Query values arrive as a map from key to values,
  and responses are values. `view/render.go`, `json.go` and the rest of the
  repository are not part of this model.
- Cycle.TimeAfterACycle: the calendar arithmetic of `time.AddDate` is the
  `addDate` parameter.
- JSON text. Parsing and escaping are not modelled. A JSON document is a
  string, null or something else, and `MarshalJSON` writes the label between
  quotes without escaping, as the source does.
- `strconv`. The Go standard library is outside the modelled files.
  Text.ParseUint64 and Text.ParseInt64 follow its base-10, 64-bit digit loop,
  including the order of its checks. Underscores and base prefixes, which
  base 10 never accepts, are left out.
- `ErrIncompatible`. The sentinel the enum scanners return is declared
  outside the modelled files, so it is an opaque error value here.
- Semver.Compare: works on unbounded integers. A Go `int` subtraction that
  overflows for components near the int64 bounds is not modelled.
- Paging.Offset: works on unbounded integers. The int64 overflow of
  `(page-1)*limit` is not modelled.
- Render.NewDBError: takes a data-layer error value. The nil error, on which
  the Go code would dereference nil, has no counterpart.
- View.NewDBFailure: takes a data-layer error value. A nil error, on which
  `err.Error()` at view/response.go:159 would panic, has no counterpart.
- Render.NewUnprocessable: takes a validation error value. A nil
  `*ValidationError`, whose `ve.Message` at render/response.go:82 would
  panic, has no counterpart.
- View.NewUnprocessable: takes a reason value. A nil `*Reason`, whose
  `r.Message` at view/response.go:117 would panic, has no counterpart.
- View.NewUnauthorizedBasic: takes a reason value. A nil `*Reason`, on which
  `r.GetMessage()` at view/response.go:82 would panic, has no counterpart.
- Http.Add, Http.Set, Http.Get and Http.Values: header keys are compared as
  written, without `textproto.CanonicalMIMEHeaderKey`.
  - This agrees with Go for every key the core passes to Add and Set
    (Content-Type, Cache-Control, Pragma), because those keys are already
    canonical.
  - It does not agree for the map literal of NewUnauthorizedBasic
    (view/response.go:76-78). Go stores that key as written, and writes it
    to the wire as written. But Go's `Header.Get` and `Header.Values`
    canonicalise their argument to "Www-Authenticate", so they find nothing
    under that key, while the model's lookup finds ["Basic"].
- View.NoCache: returns a new response. In Go a `Response` copy shares its
  header map with the original, and that aliasing is not modelled.

## Findings

| source | as written | input that shows it | evidently intended | confidence | as-written member | corrected member |
|---|---|---|---|---|---|---|
| semver/semver.go:28-33 | the padding count is `len(parts) - 3`, so only versions with more than three pieces are padded, and `parts[1]`/`parts[2]` index out of range for fewer | `Parse("1.2")` or `Parse("7")` panics | pad to three pieces with `3 - len(parts)` zeros, so "1.2" is 1.2.0 | high; not executed | Semver.ShortVersionPanics | Semver.ShortVersionPadded |

=== FILE: enum_account_kind.dfy ===
/** enum/account_kind.go: the kind of account a reader signed in with. JSON only; no SQL methods. */
module AccountKind {
  import opened Wrappers
  import opened Errors
  import opened EnumCodec

  const AccountKindNull := 0
  const AccountKindFtc := 1
  const AccountKindWx := 2
  const AccountKindLinked := 3

  const Names: seq<string> := ["", "ftc", "wechat", "linked"]

  const Enum: Codec := Table(
    invalidSuffix := " is not valid AccountKind",
    labels := map[1 := Names[1], 2 := Names[2], 3 := Names[3]],
    values := map[Names[1] := 1, Names[2] := 2, Names[3] := 3],
    cn := NoDisplay,
    en := NoDisplay,
    sc := NoDisplay,
    json := Discard,
    scan := NoScanner,
    valuer := NoValuer)

  /** "ftc", "wechat" and "linked" for ordinals 1..3; anything else is AccountKindNull with an error. */
  lemma Text(x: int, s: string)
    ensures Lists(Enum, Names)
    ensures Parse(Enum, s).err.None? <==> s == "ftc" || s == "wechat" || s == "linked"
    ensures Parse(Enum, s).err.Some? ==> Parse(Enum, s) == Outcome(AccountKindNull, Some(Errorf(s + " is not valid AccountKind")))
    ensures AccountKindFtc <= x <= AccountKindLinked ==> Parse(Enum, String(Enum, x)) == Outcome(x, None)
    ensures x < AccountKindFtc || x > AccountKindLinked ==> String(Enum, x) == ""
  {
    ListedText(Enum, Names, x, s);
  }

  /** UnmarshalJSON is lenient, so a JSON round trip restores every kind and turns anything else into AccountKindNull. */
  lemma Json(prev: int, x: int, s: string)
    ensures UnmarshalJson(Enum, prev, JString(s)) == Outcome(Parse(Enum, s).value, None)
    ensures UnmarshalJson(Enum, prev, JNull) == Outcome(AccountKindNull, None)
    ensures MarshalJson(Enum, AccountKindWx) == JString("wechat")
    ensures UnmarshalJson(Enum, prev, MarshalJson(Enum, x)) ==
      Outcome(if AccountKindFtc <= x <= AccountKindLinked then x else AccountKindNull, None)
  {
    JsonRoundTrip(Enum, prev, x);
  }
}

=== FILE: enum_codec.dfy ===
/**
 * The closed-enumeration codec shared by every type of the `enum` package.
 *
 * Each Go enum is an `int` type with a label table (`xxxMap`), a decode table
 * (`xxxValue`, the labels inverted plus any decode-only aliases), optional
 * display tables, and the same conversions: `ParseX`, `String`,
 * `MarshalJSON`/`UnmarshalJSON` and `Scan`/`Value`. The types differ only in
 * their tables and in how their decoders treat a label they do not know, so
 * here a type is a `Table` value and every conversion is one function over it.
 *
 * Ordinals stay plain `int`: Go lets any int inhabit the type, and several
 * conversions say what happens to ordinals that have no label. Ordinal 0 is the
 * null/invalid value of every type.
 */
module EnumCodec {
  import opened Wrappers
  import opened Errors
  import opened Sql

  /** The zero value: InvalidCycle, TierNull, PlatformNull, ... */
  const Null: int := 0

  /**
   * A display table (`StringCN`, `StringEN`, `StringSC`). Most are arrays
   * indexed after a range guard; OrderKind's is a map looked up with a default.
   */
  datatype Display =
    | NoDisplay                                          // the type has no such method
    | Indexed(entries: seq<string>, lo: int, hi: int)    // "" outside [lo, hi], else entries[x]
    | Keyed(table: map<int, string>)                     // table[x], or "" when absent

  /** What `UnmarshalJSON` does with a string `ParseX` rejects. */
  datatype JsonPolicy =
    | Propagate   // return the parse error, leave the receiver alone
    | Discard     // `tmp, _ := ParseX(s)`: store the null value, report nothing

  /** The shape of the type's `Scan` method. */
  datatype ScanPolicy =
    | NoScanner                                  // the type does not implement sql.Scanner
    | ScanBytesPropagate(incompatible: Error)    // bytes parsed strictly; other types rejected
    | ScanBytesDiscard(incompatible: Error)      // bytes parsed leniently; other types rejected
    | ScanAnyText                                // string or bytes parsed leniently; never fails

  /** The shape of the type's `Value` method. */
  datatype ValuePolicy =
    | NoValuer            // the type does not implement driver.Valuer
    | NilWhenUnlabelled   // nil when String() is "", else the label
    | NilWhenNull         // nil only for ordinal 0, else String()

  datatype Table = Table(
    invalidSuffix: string,        // ParseX's error text is the input followed by this
    labels: map<int, string>,     // ordinal -> label, used by String
    values: map<string, int>,     // label or alias -> ordinal, used by ParseX
    cn: Display,
    en: Display,
    sc: Display,
    json: JsonPolicy,
    scan: ScanPolicy,
    valuer: ValuePolicy)

  predicate DisplayOk(d: Display) {
    d.Indexed? ==> 0 <= d.lo && d.hi < |d.entries|
  }

  /**
   * What every table of the package satisfies: the null ordinal has no label,
   * labels are non-empty and parse back to their own ordinal, every decode
   * entry (label or alias) lands on a labelled ordinal, the empty string
   * decodes to nothing, and the display arrays are long enough for their guard.
   */
  ghost predicate WellFormed(t: Table) {
    && Null !in t.labels
    && (forall x | x in t.labels :: t.labels[x] != "" && t.labels[x] in t.values && t.values[t.labels[x]] == x)
    && (forall s | s in t.values :: t.values[s] in t.labels)
    && "" !in t.values
    && DisplayOk(t.cn) && DisplayOk(t.en) && DisplayOk(t.sc)
  }

  type Codec = t: Table | WellFormed(t)
    witness Table("", map[], map[], NoDisplay, NoDisplay, NoDisplay, Discard, NoScanner, NoValuer)

  /** A Go result pair: the (new) value and the error, if any. */
  datatype Outcome = Outcome(value: int, err: Option<Error>)

  // ---------------------------------------------------------------------
  // Text
  // ---------------------------------------------------------------------

  /**
   * ParseX: an exact, case- and space-sensitive lookup in the decode table.
   * On a miss the result is the null value with an error naming the input.
   */
  function Parse(t: Codec, name: string): (r: Outcome)
    ensures r.err.None? <==> name in t.values
    ensures r.err.None? ==> r.value in t.labels
    ensures r.err.Some? ==> r == Outcome(Null, Some(Errorf(name + t.invalidSuffix)))
  {
    if name in t.values then Outcome(t.values[name], None)
    else Outcome(Null, Some(Errorf(name + t.invalidSuffix)))
  }

  /**
   * String: the label, or "" for the null value and any other ordinal without
   * one. A non-empty result parses back to the same ordinal.
   */
  function String(t: Codec, x: int): (s: string)
    ensures s == "" <==> x !in t.labels
    ensures s != "" ==> Parse(t, s) == Outcome(x, None)
  {
    if x in t.labels then t.labels[x] else ""
  }

  /**
   * StringCN / StringEN / StringSC: the display text, "" for any ordinal the
   * guard or the map excludes. The guard keeps array indexing in bounds.
   */
  function Localize(d: Display, x: int): (s: string)
    requires d != NoDisplay && DisplayOk(d)
    ensures d.Indexed? && (x < d.lo || x > d.hi) ==> s == ""
    ensures d.Indexed? && d.lo <= x <= d.hi ==> s == d.entries[x]
    ensures d.Keyed? ==> (x in d.table ==> s == d.table[x]) && (x !in d.table ==> s == "")
  {
    match d
    case Indexed(entries, lo, hi) => if x < lo || x > hi then "" else entries[x]
    case Keyed(table) => if x in table then table[x] else ""
  }

  // ---------------------------------------------------------------------
  // JSON
  // ---------------------------------------------------------------------

  /**
   * A JSON value as UnmarshalJSON receives it. encoding/json has already
   * checked its syntax, so it is a string, null, or some other value.
   */
  datatype Json = JString(s: string) | JNull | JOther

  /**
   * `var s string; json.Unmarshal(b, &s)`: a JSON string gives its contents,
   * null leaves `s` at "" without error, any other value is a type error.
   */
  function DecodeString(j: Json): (r: Option<string>)
    ensures r.None? <==> j.JOther?
    ensures j.JNull? ==> r == Some("")
    ensures j.JString? ==> r == Some(j.s)
  {
    match j
    case JString(s) => Some(s)
    case JNull => Some("")
    case JOther => None
  }

  /** The bytes of a JSON string or null, written as the source writes them (no escaping). */
  function JsonText(j: Json): string
    requires !j.JOther?
  {
    if j.JNull? then "null" else "\"" + j.s + "\""
  }

  /**
   * MarshalJSON: null when String() is "", otherwise the label as a JSON
   * string. Never fails.
   */
  function MarshalJson(t: Codec, x: int): (j: Json)
    ensures !j.JOther?
    ensures j.JNull? <==> x !in t.labels
    ensures j.JString? ==> j.s != "" && Parse(t, j.s) == Outcome(x, None)
  {
    var s := String(t, x);
    if s == "" then JNull else JString(s)
  }

  /** The bytes MarshalJSON returns: `null`, or the label between double quotes. */
  function MarshalJsonBytes(t: Codec, x: int): (b: string)
    ensures b == "null" <==> x !in t.labels
    ensures x in t.labels ==> b == "\"" + t.labels[x] + "\""
  {
    var j := MarshalJson(t, x);
    assert j.JString? ==> JsonText(j)[0] == '"';
    JsonText(j)
  }

  /**
   * UnmarshalJSON on a receiver holding `prev`. Non-string JSON is rejected
   * with the receiver untouched. A lenient type stores the parse result,
   * the null value for anything unknown (JSON null included). A strict type
   * returns the parse error and keeps `prev`; since JSON null reaches the
   * parser as "", a strict type rejects null.
   */
  function UnmarshalJson(t: Codec, prev: int, j: Json): (r: Outcome)
    ensures j.JOther? ==> r == Outcome(prev, Some(JsonNotString))
    ensures r.err.Some? ==> r.value == prev
    ensures r.err.None? ==> r.value == Null || r.value in t.labels
    ensures t.json == Discard ==> (r.err.None? <==> !j.JOther?)
    ensures t.json == Discard && j.JString? ==> r.value == (if j.s in t.values then t.values[j.s] else Null)
    ensures t.json == Discard && j.JNull? ==> r == Outcome(Null, None)
    ensures t.json == Propagate && j.JString? ==> (r.err.None? <==> j.s in t.values)
    ensures t.json == Propagate && j.JString? && j.s in t.values ==> r.value == t.values[j.s]
    ensures t.json == Propagate && j.JNull? ==> r == Outcome(prev, Some(Errorf(t.invalidSuffix)))
    ensures t.json == Propagate && j.JString? && j.s !in t.values ==> r == Outcome(prev, Some(Errorf(j.s + t.invalidSuffix)))
  {
    match DecodeString(j)
    case None => Outcome(prev, Some(JsonNotString))
    case Some(s) =>
      var p := Parse(t, s);
      if t.json == Propagate && p.err.Some? then
        assert s == "" ==> s + t.invalidSuffix == t.invalidSuffix;
        Outcome(prev, p.err)
      else Outcome(p.value, None)
  }

  // ---------------------------------------------------------------------
  // SQL
  // ---------------------------------------------------------------------

  /**
   * Scan on a receiver holding `prev`. NULL always gives the null value.
   * Bytes (and, for ScanAnyText, strings) are parsed strictly or leniently by
   * the type's policy; other driver values are rejected, except under
   * ScanAnyText where they parse as "" and so give the null value.
   */
  function Scan(t: Codec, prev: int, src: Src): (r: Outcome)
    requires !t.scan.NoScanner?
    ensures src.SNull? ==> r == Outcome(Null, None)
    ensures r.err.Some? ==> r.value == prev
    ensures r.err.None? ==> r.value == Null || r.value in t.labels
    ensures t.scan.ScanAnyText? ==> r.err.None?
    ensures t.scan.ScanBytesDiscard? ==> (r.err.None? <==> src.SNull? || src.SBytes?)
    ensures t.scan.ScanBytesPropagate? ==> (r.err.None? <==> src.SNull? || (src.SBytes? && src.b in t.values))
    ensures !t.scan.ScanAnyText? && (src.SString? || src.SOther?) ==> r.err == Some(t.scan.incompatible)
    ensures src.SBytes? && src.b in t.values ==> r == Outcome(t.values[src.b], None)
    ensures src.SBytes? && !t.scan.ScanBytesPropagate? ==> r == Outcome(if src.b in t.values then t.values[src.b] else Null, None)
    ensures t.scan.ScanBytesPropagate? && src.SBytes? && src.b !in t.values ==> r == Outcome(prev, Some(Errorf(src.b + t.invalidSuffix)))
    ensures t.scan.ScanAnyText? && src.SString? ==> r == Outcome(if src.s in t.values then t.values[src.s] else Null, None)
    ensures t.scan.ScanAnyText? && src.SOther? ==> r == Outcome(Null, None)
  {
    match t.scan
    case ScanAnyText =>
      var name := match src
        case SString(s) => s
        case SBytes(b) => b
        case _ => "";
      if src.SNull? then Outcome(Null, None)
      else Outcome(Parse(t, name).value, None)
    case ScanBytesPropagate(incompatible) =>
      if src.SNull? then Outcome(Null, None)
      else if src.SBytes? then
        var p := Parse(t, src.b);
        if p.err.Some? then Outcome(prev, p.err) else p
      else Outcome(prev, Some(incompatible))
    case ScanBytesDiscard(incompatible) =>
      if src.SNull? then Outcome(Null, None)
      else if src.SBytes? then Outcome(Parse(t, src.b).value, None)
      else Outcome(prev, Some(incompatible))
  }

  /**
   * Value: what is written to the column, None standing for nil. Under
   * NilWhenUnlabelled nil is written exactly for ordinals without a label;
   * under NilWhenNull only for ordinal 0, so an out-of-table ordinal is written
   * as the empty string.
   */
  function Value(t: Codec, x: int): (v: Option<string>)
    requires !t.valuer.NoValuer?
    ensures t.valuer.NilWhenUnlabelled? ==> (v.None? <==> x !in t.labels)
    ensures t.valuer.NilWhenNull? ==> (v.None? <==> x == Null)
    ensures v.Some? ==> v.value == String(t, x)
  {
    if t.valuer.NilWhenNull? then
      if x == Null then None else Some(String(t, x))
    else
      var s := String(t, x);
      if s == "" then None else Some(s)
  }

  // ---------------------------------------------------------------------
  // Tables built from a name array
  // ---------------------------------------------------------------------

  /**
   * The table is the one the source builds from its `xxxNames` array: the
   * labelled ordinals are 1 .. |names|-1, ordinal x is labelled names[x], and
   * the decode table inverts exactly those labels (no alias).
   */
  ghost predicate Lists(t: Table, names: seq<string>) {
    && |names| >= 1
    && (forall x :: x in t.labels <==> 1 <= x < |names|)
    && (forall x | 1 <= x < |names| :: t.labels[x] == names[x])
    && (forall s | s in t.values :: 1 <= t.values[s] < |names| && names[t.values[s]] == s)
  }

  /** The label map of a name array: i to names[i], for i >= 1. */
  function LabelsOf(names: seq<string>): (m: map<int, string>)
    ensures forall x :: x in m <==> 1 <= x < |names|
    ensures forall x | x in m :: m[x] == names[x]
  {
    map i | 1 <= i < |names| :: names[i]
  }

  /**
   * For distinct names the label map has no empty label and no label shared
   * by two ordinals, so String() can be inverted.
   */
  lemma LabelsOfInjective(names: seq<string>, x: int, y: int)
    requires DistinctNames(names)
    ensures x in LabelsOf(names) ==> LabelsOf(names)[x] != ""
    ensures x in LabelsOf(names) && y in LabelsOf(names) && x != y ==> LabelsOf(names)[x] != LabelsOf(names)[y]
  {
    var m := LabelsOf(names);
    if x in m && y in m && x != y {
      if x < y { assert names[x] != names[y]; } else { assert names[y] != names[x]; }
    }
  }

  /** The names from index 1 on are non-empty and pairwise distinct. */
  predicate DistinctNames(names: seq<string>) {
    && (forall i | 1 <= i < |names| :: names[i] != "")
    && (forall i, j | 1 <= i < j < |names| :: names[i] != names[j])
  }

  /** The decode map of a name array: names[i] to i, for i >= 1. */
  function Inverse(names: seq<string>): (m: map<string, int>)
    requires |names| >= 1 && DistinctNames(names)
    ensures forall i | 1 <= i < |names| :: names[i] in m && m[names[i]] == i
    ensures forall s | s in m :: 1 <= m[s] < |names| && names[m[s]] == s
    ensures "" !in m
  {
    var m := map i | 1 <= i < |names| :: names[i] := i;
    forall i | 1 <= i < |names|
      ensures names[i] in m && m[names[i]] == i
    {
      assert names[i] in m;
      var k := m[names[i]];
      assert 1 <= k < |names| && names[k] == names[i];
    }
    m
  }

  /** A string is in the decode map of a name array exactly when it is one of the names after the first. */
  lemma InverseListed(names: seq<string>, s: string)
    requires |names| >= 1 && DistinctNames(names)
    ensures s in Inverse(names) <==> s in names[1..]
  {
    var m := Inverse(names);
    if s in names[1..] {
      var k :| 0 <= k < |names| - 1 && names[1..][k] == s;
      assert names[k + 1] == s;
    }
    if s in m {
      assert names[1..][m[s] - 1] == s;
    }
  }

  /** Decode-only aliases: non-empty, not themselves labels, each onto a labelled ordinal. */
  predicate AliasesOk(names: seq<string>, aliases: map<string, int>) {
    forall a | a in aliases :: a != "" && 1 <= aliases[a] < |names| && (forall i | 1 <= i < |names| :: names[i] != a)
  }

  /**
   * The table a type builds from its name array: ordinal i is labelled
   * names[i] for i >= 1, the decode table inverts that and adds `aliases`.
   */
  function FromNames(
    names: seq<string>, aliases: map<string, int>, invalidSuffix: string,
    cn: Display, en: Display, sc: Display,
    json: JsonPolicy, scan: ScanPolicy, valuer: ValuePolicy): (t: Table)
    requires |names| >= 1 && DistinctNames(names) && AliasesOk(names, aliases)
    ensures t.labels == LabelsOf(names) && t.values == Inverse(names) + aliases
    ensures t.invalidSuffix == invalidSuffix && t.cn == cn && t.en == en && t.sc == sc
    ensures t.json == json && t.scan == scan && t.valuer == valuer
  {
    Table(invalidSuffix, LabelsOf(names), Inverse(names) + aliases, cn, en, sc, json, scan, valuer)
  }

  /**
   * A table built from distinct names and proper aliases is well formed, and
   * without aliases it lists exactly the names.
   */
  lemma FromNamesWellFormed(t: Table, names: seq<string>, aliases: map<string, int>)
    requires |names| >= 1 && DistinctNames(names) && AliasesOk(names, aliases)
    requires t.labels == LabelsOf(names) && t.values == Inverse(names) + aliases
    requires DisplayOk(t.cn) && DisplayOk(t.en) && DisplayOk(t.sc)
    ensures WellFormed(t)
    ensures aliases == map[] ==> Lists(t, names)
  {
    var inverse := Inverse(names);
    forall x | x in t.labels
      ensures t.labels[x] != "" && t.labels[x] in t.values && t.values[t.labels[x]] == x
    {
      assert t.labels[x] == names[x];
      assert names[x] !in aliases;
    }
    forall s | s in t.values
      ensures t.values[s] in t.labels
    {
      if s in aliases {
        assert t.values[s] == aliases[s];
      } else {
        assert t.values[s] == inverse[s];
      }
    }
    if aliases == map[] {
      assert t.values == inverse;
    }
  }

  /**
   * For such a table: String gives names[x] inside the range and "" outside
   * it, Parse accepts exactly the listed names, and each name parses to its
   * own index.
   */
  lemma ListedText(t: Codec, names: seq<string>, x: int, s: string)
    requires Lists(t, names)
    ensures String(t, x) == (if 1 <= x < |names| then names[x] else "")
    ensures Parse(t, s).err.None? <==> s in names[1..]
    ensures 1 <= x < |names| ==> Parse(t, names[x]) == Outcome(x, None)
  {
    if s in names[1..] {
      var k :| 0 <= k < |names| - 1 && names[1..][k] == s;
      assert t.labels[k + 1] == s;
    }
    if s in t.values {
      assert names[1..][t.values[s] - 1] == s;
    }
  }

  // ---------------------------------------------------------------------
  // Laws relating the conversions
  // ---------------------------------------------------------------------

  /**
   * Decoding normalises: whatever a label or alias parses to has a label
   * that parses to the same ordinal, so an alias is never emitted.
   */
  lemma ParseNormalises(t: Codec, s: string)
    requires s in t.values
    ensures String(t, Parse(t, s).value) == t.labels[t.values[s]]
    ensures Parse(t, String(t, Parse(t, s).value)) == Parse(t, s)
  {
  }

  /** No two ordinals share a label, so String is injective on labelled ordinals. */
  lemma LabelsDistinct(t: Codec, x: int, y: int)
    requires x in t.labels && y in t.labels && x != y
    ensures t.labels[x] != t.labels[y]
  {
  }

  /**
   * The JSON round trip: decoding what MarshalJSON wrote restores every
   * labelled ordinal; an unlabelled one is written as null, which a lenient
   * type reads as the null value and a strict type rejects.
   */
  lemma JsonRoundTrip(t: Codec, prev: int, x: int)
    ensures x in t.labels ==> UnmarshalJson(t, prev, MarshalJson(t, x)) == Outcome(x, None)
    ensures x !in t.labels && t.json == Discard ==> UnmarshalJson(t, prev, MarshalJson(t, x)) == Outcome(Null, None)
    ensures x !in t.labels && t.json == Propagate ==>
      UnmarshalJson(t, prev, MarshalJson(t, x)) == Outcome(prev, Some(Errorf(t.invalidSuffix)))
  {
  }

  /**
   * The SQL round trip: scanning what Value wrote (nil read back as NULL, a
   * string read back as bytes) restores every labelled ordinal. Every other
   * ordinal reads back as the null value without error, unless the type writes
   * "" for it and then parses bytes strictly (no type of the package does).
   */
  lemma SqlRoundTrip(t: Codec, prev: int, x: int)
    requires !t.scan.NoScanner? && !t.valuer.NoValuer?
    ensures x in t.labels ==> Scan(t, prev, Stored(Value(t, x))) == Outcome(x, None)
    ensures x !in t.labels && !(t.valuer.NilWhenNull? && t.scan.ScanBytesPropagate?) ==>
      Scan(t, prev, Stored(Value(t, x))) == Outcome(Null, None)
    ensures x !in t.labels && x != Null && t.valuer.NilWhenNull? && t.scan.ScanBytesPropagate? ==>
      Scan(t, prev, Stored(Value(t, x))) == Outcome(prev, Some(Errorf(t.invalidSuffix)))
  {
    assert "" + t.invalidSuffix == t.invalidSuffix;
  }
}

=== FILE: enum_cycle.dfy ===
/** enum/cycle.go: billing cycles. */
module Cycle {
  import opened Wrappers
  import opened Errors
  import opened Sql
  import opened EnumCodec

  const InvalidCycle := 0
  const CycleMonth := 1
  const CycleYear := 2

  const Names: seq<string> := ["", "month", "year"]

  const Enum: Codec := Table(
    invalidSuffix := " is not a valid Cycle",
    labels := map[1 := Names[1], 2 := Names[2]],
    values := map[Names[1] := 1, Names[2] := 2],
    cn := Indexed(["", "月", "年"], CycleMonth, CycleYear),
    en := Indexed(["", "Month", "Year"], CycleMonth, CycleYear),
    sc := NoDisplay,
    json := Discard,
    scan := ScanBytesDiscard(ErrIncompatible),
    valuer := NilWhenUnlabelled)

  /**
   * ParseCycle is an exact lookup of "month" and "year"; String inverts it and
   * gives "" for every other int; the display strings are "" outside
   * [CycleMonth, CycleYear].
   */
  lemma Text(x: int, s: string)
    ensures Lists(Enum, Names)
    ensures Parse(Enum, s) == (if s == "month" then Outcome(CycleMonth, None)
                               else if s == "year" then Outcome(CycleYear, None)
                               else Outcome(InvalidCycle, Some(Errorf(s + " is not a valid Cycle"))))
    ensures String(Enum, x) == (if x == CycleMonth then "month" else if x == CycleYear then "year" else "")
    ensures Localize(Enum.cn, x) == (if x == CycleMonth then "月" else if x == CycleYear then "年" else "")
    ensures Localize(Enum.en, x) == (if x == CycleMonth then "Month" else if x == CycleYear then "Year" else "")
  {
  }

  /**
   * UnmarshalJSON is lenient: any string or null stores the ParseCycle result
   * without error. Scan: NULL gives InvalidCycle, bytes are parsed leniently,
   * anything else is ErrIncompatible with the receiver unchanged.
   */
  lemma Decoders(prev: int, s: string)
    ensures UnmarshalJson(Enum, prev, JString(s)) == Outcome(Parse(Enum, s).value, None)
    ensures UnmarshalJson(Enum, prev, JNull) == Outcome(InvalidCycle, None)
    ensures UnmarshalJson(Enum, prev, JOther) == Outcome(prev, Some(JsonNotString))
    ensures Scan(Enum, prev, SNull) == Outcome(InvalidCycle, None)
    ensures Scan(Enum, prev, SBytes(s)) == Outcome(Parse(Enum, s).value, None)
    ensures Scan(Enum, prev, SString(s)) == Outcome(prev, Some(ErrIncompatible))
    ensures Scan(Enum, prev, SOther) == Outcome(prev, Some(ErrIncompatible))
  {
  }

  /**
   * MarshalJSON writes `null` for unlabelled ordinals and the quoted label
   * otherwise; Value writes nil or the label, so scanning it back restores
   * every labelled cycle.
   */
  lemma Encoders(prev: int, x: int)
    ensures MarshalJsonBytes(Enum, CycleYear) == "\"year\""
    ensures MarshalJsonBytes(Enum, x) == "null" <==> x != CycleMonth && x != CycleYear
    ensures Value(Enum, x) == (if x == CycleMonth then Some("month") else if x == CycleYear then Some("year") else None)
    ensures x == CycleMonth || x == CycleYear ==> Scan(Enum, prev, Stored(Value(Enum, x))) == Outcome(x, None)
  {
    SqlRoundTrip(Enum, prev, x);
  }

  /**
   * TimeAfterACycle: a year (plus one day) or a month (plus one day) later;
   * any other cycle is an error and the time comes back unchanged. The
   * calendar arithmetic of time.AddDate is the `addDate` parameter.
   */
  function TimeAfterACycle<T>(c: int, t: T, addDate: (T, int, int, int) -> T): (r: (T, Option<Error>))
    ensures c != CycleMonth && c != CycleYear ==> r == (t, Some(Errorf("not a valid cycle type")))
    ensures c == CycleYear ==> r == (addDate(t, 1, 0, 1), None)
    ensures c == CycleMonth ==> r == (addDate(t, 0, 1, 1), None)
  {
    if c == CycleYear then (addDate(t, 1, 0, 1), None)
    else if c == CycleMonth then (addDate(t, 0, 1, 1), None)
    else (t, Some(Errorf("not a valid cycle type")))
  }
}

=== FILE: enum_environment.dfy ===
/** enum/environment.go: Apple's production and sandbox environments, with the decode-only alias "PROD". */
module Environment {
  import opened Wrappers
  import opened Errors
  import opened Sql
  import opened EnumCodec

  const EnvNull := 0
  const EnvProduction := 1
  const EnvSandbox := 2

  const Names: seq<string> := ["", "Production", "Sandbox"]

  const Enum: Codec := Table(
    invalidSuffix := " is not a valid Environment",
    labels := map[1 := Names[1], 2 := Names[2]],
    values := map[Names[1] := 1, Names[2] := 2, "PROD" := 1],
    cn := NoDisplay,
    en := NoDisplay,
    sc := NoDisplay,
    json := Discard,
    scan := ScanBytesDiscard(ErrIncompatible),
    valuer := NilWhenUnlabelled)

  /**
   * The decode table maps "Production" and the alias "PROD" to EnvProduction
   * and "Sandbox" to EnvSandbox; anything else, "production" included, gives
   * EnvNull with an error. The alias is never produced: String gives
   * "Production", so parsing "PROD" and printing normalises it.
   */
  lemma Text(x: int, s: string)
    ensures Parse(Enum, s).err.None? <==> s == "Production" || s == "Sandbox" || s == "PROD"
    ensures Parse(Enum, "PROD") == Parse(Enum, "Production") == Outcome(EnvProduction, None)
    ensures Parse(Enum, "Sandbox") == Outcome(EnvSandbox, None)
    ensures Parse(Enum, "production").err.Some? && Parse(Enum, "production").value == EnvNull
    ensures String(Enum, x) == (if x == EnvProduction then "Production" else if x == EnvSandbox then "Sandbox" else "")
    ensures String(Enum, x) != "PROD"
    ensures String(Enum, Parse(Enum, "PROD").value) == "Production"
  {
  }

  /** UnmarshalJSON is lenient; Scan gives EnvNull for NULL, parses bytes leniently, and rejects other values with ErrIncompatible. */
  lemma Decoders(prev: int, s: string)
    ensures UnmarshalJson(Enum, prev, JString(s)) == Outcome(Parse(Enum, s).value, None)
    ensures UnmarshalJson(Enum, prev, JString("PROD")) == Outcome(EnvProduction, None)
    ensures UnmarshalJson(Enum, prev, JNull) == Outcome(EnvNull, None)
    ensures Scan(Enum, prev, SNull) == Outcome(EnvNull, None)
    ensures Scan(Enum, prev, SBytes(s)) == Outcome(Parse(Enum, s).value, None)
    ensures Scan(Enum, prev, SString(s)) == Outcome(prev, Some(ErrIncompatible))
    ensures Scan(Enum, prev, SOther) == Outcome(prev, Some(ErrIncompatible))
  {
  }

  /** MarshalJSON and Value write the canonical label, never the alias. */
  lemma Encoders(prev: int, x: int)
    ensures MarshalJsonBytes(Enum, EnvProduction) == "\"Production\""
    ensures Value(Enum, EnvProduction) == Some("Production")
    ensures MarshalJsonBytes(Enum, x) == "null" <==> String(Enum, x) == ""
    ensures Value(Enum, x).None? <==> String(Enum, x) == ""
    ensures x == EnvProduction || x == EnvSandbox ==> Scan(Enum, prev, Stored(Value(Enum, x))) == Outcome(x, None)
  {
    SqlRoundTrip(Enum, prev, x);
  }
}

=== FILE: enum_gender.dfy ===
/** enum/gender.go: "F" and "M", decoded strictly. */
module Gender {
  import opened Wrappers
  import opened Errors
  import opened Sql
  import opened EnumCodec

  const InvalidGender := 0
  const GenderFemale := 1
  const GenderMale := 2

  const Names: seq<string> := ["", "F", "M"]

  const Enum: Codec := Table(
    invalidSuffix := " is not a valid Gender",
    labels := map[1 := Names[1], 2 := Names[2]],
    values := map[Names[1] := 1, Names[2] := 2],
    cn := NoDisplay,
    en := NoDisplay,
    sc := NoDisplay,
    json := Propagate,
    scan := ScanBytesPropagate(ErrIncompatible),
    valuer := NilWhenUnlabelled)

  /**
   * The labels are "F" (GenderFemale) and "M" (GenderMale). ParseGender is
   * exact and case-sensitive: "f" and "female" are rejected. String inverts it.
   */
  lemma Text(x: int, s: string)
    ensures Lists(Enum, Names)
    ensures Parse(Enum, s).err.None? <==> s == "F" || s == "M"
    ensures Parse(Enum, "f").err.Some? && Parse(Enum, "female").err.Some? && Parse(Enum, "null").err.Some?
    ensures x == GenderFemale || x == GenderMale ==> Parse(Enum, String(Enum, x)) == Outcome(x, None)
    ensures String(Enum, x) == (if x == GenderFemale then "F" else if x == GenderMale then "M" else "")
  {
    ListedText(Enum, Names, x, s);
  }

  /**
   * UnmarshalJSON and Scan are strict: a string ParseGender rejects, JSON null
   * included, is returned as an error and the receiver keeps its value. Scan
   * gives InvalidGender for NULL and ErrIncompatible for anything but bytes.
   */
  lemma Decoders(prev: int, s: string)
    ensures UnmarshalJson(Enum, prev, JString(s)) ==
      (if s == "F" || s == "M" then Parse(Enum, s) else Outcome(prev, Some(Errorf(s + " is not a valid Gender"))))
    ensures UnmarshalJson(Enum, prev, JNull) == Outcome(prev, Some(Errorf(" is not a valid Gender")))
    ensures UnmarshalJson(Enum, prev, JOther) == Outcome(prev, Some(JsonNotString))
    ensures Scan(Enum, prev, SNull) == Outcome(InvalidGender, None)
    ensures Scan(Enum, prev, SBytes(s)) == UnmarshalJson(Enum, prev, JString(s))
    ensures Scan(Enum, prev, SString(s)) == Outcome(prev, Some(ErrIncompatible))
    ensures Scan(Enum, prev, SOther) == Outcome(prev, Some(ErrIncompatible))
  {
    ListedText(Enum, Names, 0, s);
  }

  /** MarshalJSON is `null` and Value is nil exactly when String() is "". */
  lemma Encoders(prev: int, x: int)
    ensures MarshalJsonBytes(Enum, x) == "null" <==> String(Enum, x) == ""
    ensures MarshalJsonBytes(Enum, GenderFemale) == "\"F\""
    ensures Value(Enum, x).None? <==> String(Enum, x) == ""
    ensures x == GenderFemale || x == GenderMale ==> Scan(Enum, prev, Stored(Value(Enum, x))) == Outcome(x, None)
  {
    SqlRoundTrip(Enum, prev, x);
  }
}

=== FILE: enum_login_method.dfy ===
/** enum/login_method.go: email or wechat login; its decoders never fail on text. */
module LoginMethod {
  import opened Wrappers
  import opened Errors
  import opened Sql
  import opened EnumCodec

  const InvalidLogin := 0
  const LoginMethodEmail := 1
  const LoginMethodWx := 2

  const Names: seq<string> := ["", "email", "wechat"]

  const Enum: Codec := Table(
    invalidSuffix := " is not a valid LoginMethod",
    labels := map[1 := Names[1], 2 := Names[2]],
    values := map[Names[1] := 1, Names[2] := 2],
    cn := NoDisplay,
    en := NoDisplay,
    sc := NoDisplay,
    json := Discard,
    scan := ScanAnyText,
    valuer := NilWhenNull)

  /** The labels are email and wechat for ordinals 1 and 2; unknown input gives InvalidLogin with an error. */
  lemma Text(x: int, s: string)
    ensures Lists(Enum, Names)
    ensures Parse(Enum, s).err.None? <==> s == "email" || s == "wechat"
    ensures Parse(Enum, s).err.Some? ==> Parse(Enum, s).value == InvalidLogin
    ensures x == LoginMethodEmail || x == LoginMethodWx ==> Parse(Enum, String(Enum, x)) == Outcome(x, None)
  {
    ListedText(Enum, Names, x, s);
  }

  /**
   * UnmarshalJSON ignores parse errors ("unknown" gives InvalidLogin and no
   * error). Scan accepts a string or bytes, gives InvalidLogin for NULL, and
   * never returns an error: any other driver value parses as "".
   */
  lemma Decoders(prev: int, s: string)
    ensures UnmarshalJson(Enum, prev, JString("unknown")) == Outcome(InvalidLogin, None)
    ensures UnmarshalJson(Enum, prev, JString(s)) == Outcome(Parse(Enum, s).value, None)
    ensures UnmarshalJson(Enum, prev, JNull) == Outcome(InvalidLogin, None)
    ensures Scan(Enum, prev, SString(s)) == Outcome(Parse(Enum, s).value, None)
    ensures Scan(Enum, prev, SBytes(s)) == Outcome(Parse(Enum, s).value, None)
    ensures Scan(Enum, prev, SNull) == Outcome(InvalidLogin, None)
    ensures Scan(Enum, prev, SOther) == Outcome(InvalidLogin, None)
  {
  }

  /**
   * Value is nil only for ordinal 0; every other ordinal is written as
   * String(), so an out-of-table ordinal is written as "" rather than nil.
   * MarshalJSON is `null` exactly when String() is "".
   */
  lemma Encoders(prev: int, x: int)
    ensures Value(Enum, x).None? <==> x == InvalidLogin
    ensures x != InvalidLogin && x != LoginMethodEmail && x != LoginMethodWx ==> Value(Enum, x) == Some("")
    ensures MarshalJsonBytes(Enum, x) == "null" <==> String(Enum, x) == ""
    ensures MarshalJsonBytes(Enum, LoginMethodEmail) == "\"email\""
    ensures Scan(Enum, prev, Stored(Value(Enum, x))) ==
      (if x == LoginMethodEmail || x == LoginMethodWx then Outcome(x, None) else Outcome(InvalidLogin, None))
  {
    SqlRoundTrip(Enum, prev, x);
  }
}

=== FILE: enum_order_kind.dfy ===
/** enum/order_kind.go: what a subscription order buys. */
module OrderKind {
  import opened Wrappers
  import opened Errors
  import opened Sql
  import opened EnumCodec

  const OrderKindNull := 0
  const OrderKindCreate := 1
  const OrderKindRenew := 2
  const OrderKindUpgrade := 3
  const OrderKindDowngrade := 4
  const OrderKindAddOn := 5
  const OrderKindSwitchCycle := 6

  const Names: seq<string> := ["", "create", "renew", "upgrade", "downgrade", "add_on", "switch_cycle"]

  /** StringSC is a map lookup with "" as the default, not a guarded array. */
  const SC: map<int, string> :=
    map[1 := "订阅", 2 := "续订", 3 := "升级订阅", 4 := "购买标准版", 5 := "补充包", 6 := "更改订阅周期"]

  const Built: Table := FromNames(Names, map[], " is not valid OrderKind",
    NoDisplay, NoDisplay, Keyed(SC),
    Discard, ScanBytesDiscard(Errorf("incompatible type to scan")), NilWhenUnlabelled)

  const Enum: Codec := (FromNamesWellFormed(Built, Names, map[]); Built)

  /** The six labels map one-to-one to ordinals 1..6; unknown input gives OrderKindNull with an error. */
  lemma Text(x: int, s: string)
    ensures Lists(Enum, Names)
    ensures Parse(Enum, s).err.Some? ==> Parse(Enum, s) == Outcome(OrderKindNull, Some(Errorf(s + " is not valid OrderKind")))
    ensures OrderKindCreate <= x <= OrderKindSwitchCycle ==> Parse(Enum, String(Enum, x)) == Outcome(x, None)
    ensures x < OrderKindCreate || x > OrderKindSwitchCycle ==> String(Enum, x) == ""
  {
    ListedText(Enum, Names, x, s);
  }

  /** The Chinese texts cover exactly the labelled kinds, and none is empty. */
  lemma TextsCoverKinds(x: int)
    ensures x in SC <==> OrderKindCreate <= x <= OrderKindSwitchCycle
    ensures x in SC ==> SC[x] != ""
  {
  }

  /** StringSC has a text exactly for the labelled kinds. */
  lemma Display(x: int)
    ensures Localize(Enum.sc, x) == "" <==> String(Enum, x) == ""
    ensures Localize(Enum.sc, OrderKindAddOn) == "补充包"
  {
    assert Enum.sc == Keyed(SC);
    assert Lists(Enum, Names);
    assert String(Enum, x) == "" <==> !(1 <= x < |Names|);
    TextsCoverKinds(x);
  }

  /** UnmarshalJSON is lenient; Scan gives Null for NULL, parses bytes leniently, and rejects other values. */
  lemma Decoders(prev: int, s: string)
    ensures UnmarshalJson(Enum, prev, JString(s)) == Outcome(Parse(Enum, s).value, None)
    ensures UnmarshalJson(Enum, prev, JNull) == Outcome(OrderKindNull, None)
    ensures Scan(Enum, prev, SNull) == Outcome(OrderKindNull, None)
    ensures Scan(Enum, prev, SBytes(s)) == Outcome(Parse(Enum, s).value, None)
    ensures Scan(Enum, prev, SOther) == Outcome(prev, Some(Errorf("incompatible type to scan")))
  {
  }

  /** MarshalJSON is `null` and Value is nil exactly when there is no label; every kind survives the column. */
  lemma Encoders(prev: int, x: int)
    ensures MarshalJsonBytes(Enum, x) == "null" <==> String(Enum, x) == ""
    ensures Value(Enum, x).None? <==> String(Enum, x) == ""
    ensures MarshalJson(Enum, OrderKindAddOn) == JString("add_on")
    ensures OrderKindCreate <= x <= OrderKindSwitchCycle ==> Scan(Enum, prev, Stored(Value(Enum, x))) == Outcome(x, None)
  {
    ListedText(Enum, Names, x, "");
    SqlRoundTrip(Enum, prev, x);
  }
}

=== FILE: enum_pay_method.dfy ===
/** enum/pay_method.go: payment methods, decoded strictly. */
module PayMethod {
  import opened Wrappers
  import opened Errors
  import opened Sql
  import opened EnumCodec

  const InvalidPay := 0
  const PayMethodAli := 1
  const PayMethodWx := 2
  const PayMethodStripe := 3

  const Names: seq<string> := ["", "alipay", "tenpay", "stripe"]

  const Enum: Codec := Table(
    invalidSuffix := " is not a valid PayMethod",
    labels := map[1 := Names[1], 2 := Names[2], 3 := Names[3]],
    values := map[Names[1] := 1, Names[2] := 2, Names[3] := 3],
    cn := Indexed(["", "支付宝", "微信支付", "PayMethodStripe"], PayMethodAli, PayMethodStripe),
    en := Indexed(["", "Zhifubao", "Wechat Pay", "PayMethodStripe"], PayMethodAli, PayMethodStripe),
    sc := NoDisplay,
    json := Propagate,
    scan := ScanBytesPropagate(ErrIncompatible),
    valuer := NilWhenUnlabelled)

  /**
   * The labels are alipay, tenpay and stripe for ordinals 1..3: WeChat Pay is
   * "tenpay" and "wechat" is not accepted. ParsePayMethod is an exact lookup,
   * String its inverse; the display strings are "" outside [PayMethodAli,
   * PayMethodStripe] and the table entry inside.
   */
  lemma Text(x: int, s: string)
    ensures Lists(Enum, Names)
    ensures String(Enum, PayMethodWx) == "tenpay"
    ensures Parse(Enum, "wechat").err.Some? && Parse(Enum, "wechat").value == InvalidPay
    ensures Parse(Enum, s).err.Some? ==> Parse(Enum, s) == Outcome(InvalidPay, Some(Errorf(s + " is not a valid PayMethod")))
    ensures PayMethodAli <= x <= PayMethodStripe ==> Parse(Enum, String(Enum, x)) == Outcome(x, None)
    ensures x < PayMethodAli || x > PayMethodStripe ==> String(Enum, x) == "" && Localize(Enum.cn, x) == "" && Localize(Enum.en, x) == ""
    ensures Localize(Enum.cn, PayMethodWx) == "微信支付" && Localize(Enum.en, PayMethodWx) == "Wechat Pay"
  {
    ListedText(Enum, Names, x, s);
    assert "wechat" !in Names[1..];
  }

  /**
   * UnmarshalJSON and Scan are strict: an unrecognised string is returned as
   * an error and the receiver keeps its value. JSON null reaches ParsePayMethod
   * as "" and is rejected the same way. Scan gives InvalidPay for NULL and
   * ErrIncompatible for anything but bytes.
   */
  lemma Decoders(prev: int, s: string)
    ensures UnmarshalJson(Enum, prev, JString(s)) ==
      (if s in Names[1..] then Parse(Enum, s) else Outcome(prev, Some(Errorf(s + " is not a valid PayMethod"))))
    ensures UnmarshalJson(Enum, prev, JNull) == Outcome(prev, Some(Errorf(" is not a valid PayMethod")))
    ensures UnmarshalJson(Enum, prev, JOther) == Outcome(prev, Some(JsonNotString))
    ensures Scan(Enum, prev, SNull) == Outcome(InvalidPay, None)
    ensures Scan(Enum, prev, SBytes(s)) == UnmarshalJson(Enum, prev, JString(s))
    ensures Scan(Enum, prev, SString(s)) == Outcome(prev, Some(ErrIncompatible))
    ensures Scan(Enum, prev, SOther) == Outcome(prev, Some(ErrIncompatible))
  {
    ListedText(Enum, Names, 0, s);
  }

  /** MarshalJSON is `null` and Value is nil exactly for ordinals without a label. */
  lemma Encoders(prev: int, x: int)
    ensures MarshalJsonBytes(Enum, PayMethodWx) == "\"tenpay\""
    ensures MarshalJsonBytes(Enum, InvalidPay) == "null"
    ensures MarshalJsonBytes(Enum, x) == "null" <==> String(Enum, x) == ""
    ensures Value(Enum, x).None? <==> String(Enum, x) == ""
    ensures PayMethodAli <= x <= PayMethodStripe ==> Scan(Enum, prev, Stored(Value(Enum, x))) == Outcome(x, None)
  {
    SqlRoundTrip(Enum, prev, x);
  }
}

=== FILE: enum_platform.dfy ===
/** enum/platform.go: the client platform of a request. */
module Platform {
  import opened Wrappers
  import opened Errors
  import opened Sql
  import opened EnumCodec

  const PlatformNull := 0
  const PlatformWeb := 1
  const PlatformIOS := 2
  const PlatformAndroid := 3

  const Names: seq<string> := ["", "web", "ios", "android"]

  const Enum: Codec := Table(
    invalidSuffix := " is not valid Platform",
    labels := map[1 := Names[1], 2 := Names[2], 3 := Names[3]],
    values := map[Names[1] := 1, Names[2] := 2, Names[3] := 3],
    cn := NoDisplay,
    en := NoDisplay,
    sc := NoDisplay,
    json := Discard,
    scan := ScanBytesDiscard(ErrIncompatible),
    valuer := NilWhenUnlabelled)

  /** The labels are web, ios and android for ordinals 1..3 and ParsePlatform inverts them; unknown input gives PlatformNull with an error. */
  lemma Text(x: int, s: string)
    ensures Lists(Enum, Names)
    ensures Parse(Enum, s).err.Some? ==> Parse(Enum, s) == Outcome(PlatformNull, Some(Errorf(s + " is not valid Platform")))
    ensures PlatformWeb <= x <= PlatformAndroid ==> Parse(Enum, String(Enum, x)) == Outcome(x, None)
    ensures Parse(Enum, "android") == Outcome(PlatformAndroid, None)
  {
    ListedText(Enum, Names, x, s);
  }

  /**
   * UnmarshalJSON is lenient (null gives PlatformNull without error). Scan:
   * NULL gives PlatformNull, bytes are parsed leniently, so "42" stores
   * PlatformNull without error, and anything else is ErrIncompatible.
   */
  lemma Decoders(prev: int, s: string)
    ensures UnmarshalJson(Enum, prev, JString(s)) == Outcome(Parse(Enum, s).value, None)
    ensures UnmarshalJson(Enum, prev, JNull) == Outcome(PlatformNull, None)
    ensures Scan(Enum, prev, SNull) == Outcome(PlatformNull, None)
    ensures Scan(Enum, prev, SBytes(s)) == Outcome(Parse(Enum, s).value, None)
    ensures Scan(Enum, prev, SBytes("android")) == Outcome(PlatformAndroid, None)
    ensures Scan(Enum, prev, SBytes("42")) == Outcome(PlatformNull, None)
    ensures Scan(Enum, prev, SString(s)) == Outcome(prev, Some(ErrIncompatible))
    ensures Scan(Enum, prev, SOther) == Outcome(prev, Some(ErrIncompatible))
  {
  }

  /** MarshalJSON: labelled platforms give the quoted label, others `null`; Value is nil exactly when there is no label. */
  lemma Encoders(prev: int, x: int)
    ensures MarshalJsonBytes(Enum, PlatformNull) == "null"
    ensures MarshalJsonBytes(Enum, PlatformIOS) == "\"ios\""
    ensures MarshalJsonBytes(Enum, x) == "null" <==> String(Enum, x) == ""
    ensures Value(Enum, x).None? <==> String(Enum, x) == ""
    ensures PlatformWeb <= x <= PlatformAndroid ==> Scan(Enum, prev, Stored(Value(Enum, x))) == Outcome(x, None)
  {
    SqlRoundTrip(Enum, prev, x);
  }
}

=== FILE: enum_snapshot_reason.dfy ===
/** enum/snapshot_reason.go: why a membership snapshot was taken. */
module SnapshotReason {
  import opened Wrappers
  import opened Errors
  import opened Sql
  import opened EnumCodec

  const SnapshotReasonNull := 0
  const SnapshotReasonRenew := 1
  const SnapshotReasonUpgrade := 2
  const SnapshotReasonDelete := 3
  const SnapshotReasonLink := 4
  const SnapshotReasonUnlink := 5
  const SnapshotReasonAppleLink := 6
  const SnapshotReasonAppleUnlink := 7
  const SnapshotReasonB2B := 8
  const SnapshotReasonManual := 9
  const SnapshotReasonIapUpdate := 10

  const Names: seq<string> :=
    ["", "renew", "upgrade", "delete", "link", "unlink", "apple_link", "apple_unlink", "b2b", "manual", "iap_update"]

  const Built: Table := FromNames(Names, map[], " is not valid SnapshotReason",
    NoDisplay, NoDisplay, NoDisplay,
    Discard, ScanBytesDiscard(Errorf("incompatible type to scan")), NilWhenUnlabelled)

  const Enum: Codec := (FromNamesWellFormed(Built, Names, map[]); Built)

  /** The ten labels map one-to-one to ordinals 1..10; unknown input gives SnapshotReasonNull with an error. */
  lemma Text(x: int, s: string)
    ensures Lists(Enum, Names)
    ensures Parse(Enum, s).err.Some? ==> Parse(Enum, s) == Outcome(SnapshotReasonNull, Some(Errorf(s + " is not valid SnapshotReason")))
    ensures SnapshotReasonRenew <= x <= SnapshotReasonIapUpdate ==> Parse(Enum, String(Enum, x)) == Outcome(x, None)
    ensures x < SnapshotReasonRenew || x > SnapshotReasonIapUpdate ==> String(Enum, x) == ""
  {
    ListedText(Enum, Names, x, s);
  }

  /** UnmarshalJSON is lenient; Scan gives Null for NULL, parses bytes leniently, and rejects other values. */
  lemma Decoders(prev: int, s: string)
    ensures UnmarshalJson(Enum, prev, JString(s)) == Outcome(Parse(Enum, s).value, None)
    ensures UnmarshalJson(Enum, prev, JNull) == Outcome(SnapshotReasonNull, None)
    ensures Scan(Enum, prev, SNull) == Outcome(SnapshotReasonNull, None)
    ensures Scan(Enum, prev, SBytes(s)) == Outcome(Parse(Enum, s).value, None)
    ensures Scan(Enum, prev, SOther) == Outcome(prev, Some(Errorf("incompatible type to scan")))
  {
  }

  /** MarshalJSON is `null` and Value is nil exactly when there is no label; every reason survives the column. */
  lemma Encoders(prev: int, x: int)
    ensures MarshalJsonBytes(Enum, x) == "null" <==> String(Enum, x) == ""
    ensures Value(Enum, x).None? <==> String(Enum, x) == ""
    ensures MarshalJson(Enum, SnapshotReasonAppleLink) == JString("apple_link")
    ensures SnapshotReasonRenew <= x <= SnapshotReasonIapUpdate ==> Scan(Enum, prev, Stored(Value(Enum, x))) == Outcome(x, None)
  {
    ListedText(Enum, Names, x, "");
    SqlRoundTrip(Enum, prev, x);
  }
}

=== FILE: enum_subs_source.dfy ===
/** enum/subs_source.go: where a subscription was bought. */
module SubsSource {
  import opened Wrappers
  import opened Errors
  import opened Sql
  import opened EnumCodec

  const SubsSourceNull := 0
  const SubsSourceRetail := 1
  const SubsSourceB2B := 2

  const Names: seq<string> := ["", "retail", "b2b"]

  /** The parse error reads "... is not valid OrderKind", as written in the source. */
  const Enum: Codec := Table(
    invalidSuffix := " is not valid OrderKind",
    labels := map[1 := Names[1], 2 := Names[2]],
    values := map[Names[1] := 1, Names[2] := 2],
    cn := NoDisplay,
    en := NoDisplay,
    sc := NoDisplay,
    json := Discard,
    scan := ScanBytesDiscard(Errorf("incompatible type to scan")),
    valuer := NilWhenUnlabelled)

  /** "retail" and "b2b" are the only labels; the parse error names OrderKind, not SubsSource. */
  lemma Text(x: int, s: string)
    ensures Lists(Enum, Names)
    ensures Parse(Enum, s).err.None? <==> s == "retail" || s == "b2b"
    ensures Parse(Enum, s).err.Some? ==> Parse(Enum, s) == Outcome(SubsSourceNull, Some(Errorf(s + " is not valid OrderKind")))
    ensures String(Enum, x) == (if x == SubsSourceRetail then "retail" else if x == SubsSourceB2B then "b2b" else "")
  {
  }

  /** UnmarshalJSON is lenient; Scan gives Null for NULL, parses bytes leniently, and rejects other values. */
  lemma Decoders(prev: int, s: string)
    ensures UnmarshalJson(Enum, prev, JString(s)) == Outcome(Parse(Enum, s).value, None)
    ensures UnmarshalJson(Enum, prev, JNull) == Outcome(SubsSourceNull, None)
    ensures Scan(Enum, prev, SNull) == Outcome(SubsSourceNull, None)
    ensures Scan(Enum, prev, SBytes(s)) == Outcome(Parse(Enum, s).value, None)
    ensures Scan(Enum, prev, SString(s)) == Outcome(prev, Some(Errorf("incompatible type to scan")))
  {
  }

  /** MarshalJSON is `null` and Value is nil exactly when there is no label; both sources survive the column. */
  lemma Encoders(prev: int, x: int)
    ensures MarshalJsonBytes(Enum, x) == "null" <==> x != SubsSourceRetail && x != SubsSourceB2B
    ensures Value(Enum, x) == (if x == SubsSourceRetail then Some("retail") else if x == SubsSourceB2B then Some("b2b") else None)
    ensures x == SubsSourceRetail || x == SubsSourceB2B ==> Scan(Enum, prev, Stored(Value(Enum, x))) == Outcome(x, None)
  {
    SqlRoundTrip(Enum, prev, x);
  }
}

=== FILE: enum_subs_status.dfy ===
/** enum/subs_status.go: the status of a subscription. */
module SubsStatus {
  import opened Wrappers
  import opened Errors
  import opened Sql
  import opened EnumCodec

  const SubsStatusNull := 0
  const SubStatusActive := 1
  const SubsStatusCanceled := 2
  const SubStatusIncomplete := 3
  const SubsStatusIncompleteExpired := 4
  const SubsStatusPastDue := 5
  const SubsStatusTrialing := 6
  const SubsStatusUnpaid := 7

  const Names: seq<string> :=
    ["", "active", "canceled", "incomplete", "incomplete_expired", "past_due", "trialing", "unpaid"]

  const Built: Table := FromNames(Names, map[], " is not valid SubsStatus",
    NoDisplay, NoDisplay, NoDisplay,
    Discard, ScanBytesDiscard(Errorf("incompatible type to scan")), NilWhenUnlabelled)

  const Enum: Codec := (FromNamesWellFormed(Built, Names, map[]); Built)

  /** The seven labels map one-to-one to ordinals 1..7; unknown input gives SubsStatusNull with an error. */
  lemma Text(x: int, s: string)
    ensures Lists(Enum, Names)
    ensures Parse(Enum, s).err.Some? ==> Parse(Enum, s) == Outcome(SubsStatusNull, Some(Errorf(s + " is not valid SubsStatus")))
    ensures 1 <= x <= 7 ==> Parse(Enum, String(Enum, x)) == Outcome(x, None)
    ensures x < 1 || x > 7 ==> String(Enum, x) == ""
  {
    ListedText(Enum, Names, x, s);
  }

  /**
   * ShouldCreate: whether a membership in this status may be replaced by a
   * new one. True for Null, Canceled, IncompleteExpired, PastDue and Unpaid;
   * false for Active, Incomplete, Trialing and every out-of-table ordinal.
   */
  function ShouldCreate(x: int): (b: bool)
    ensures b ==> x == SubsStatusNull || x in Enum.labels
    ensures x in {SubStatusActive, SubStatusIncomplete, SubsStatusTrialing} ==> !b
  {
    x == SubsStatusNull ||
    x == SubsStatusIncompleteExpired ||
    x == SubsStatusPastDue ||
    x == SubsStatusCanceled ||
    x == SubsStatusUnpaid
  }

  /** ShouldCreate in terms of labels: the unset status, or one whose label names a lapsed subscription. */
  lemma ShouldCreateByLabel(x: int)
    ensures ShouldCreate(x) <==>
      x == SubsStatusNull || String(Enum, x) in {"canceled", "incomplete_expired", "past_due", "unpaid"}
  {
  }

  /** UnmarshalJSON is lenient; Scan gives Null for NULL, parses bytes leniently, and rejects other values. */
  lemma Decoders(prev: int, s: string)
    ensures UnmarshalJson(Enum, prev, JString(s)) == Outcome(Parse(Enum, s).value, None)
    ensures UnmarshalJson(Enum, prev, JNull) == Outcome(SubsStatusNull, None)
    ensures Scan(Enum, prev, SNull) == Outcome(SubsStatusNull, None)
    ensures Scan(Enum, prev, SBytes(s)) == Outcome(Parse(Enum, s).value, None)
    ensures Scan(Enum, prev, SOther) == Outcome(prev, Some(Errorf("incompatible type to scan")))
  {
  }

  /** MarshalJSON is `null` and Value is nil exactly when there is no label. */
  lemma Encoders(prev: int, x: int)
    ensures MarshalJsonBytes(Enum, x) == "null" <==> String(Enum, x) == ""
    ensures Value(Enum, x).None? <==> String(Enum, x) == ""
    ensures MarshalJson(Enum, SubsStatusPastDue) == JString("past_due")
    ensures 1 <= x <= 7 ==> Scan(Enum, prev, Stored(Value(Enum, x))) == Outcome(x, None)
  {
    ListedText(Enum, Names, x, "");
    SqlRoundTrip(Enum, prev, x);
  }
}

=== FILE: enum_tier.dfy ===
/** enum/tier.go: membership tiers. */
module Tier {
  import opened Wrappers
  import opened Errors
  import opened Sql
  import opened EnumCodec

  const TierNull := 0
  const TierStandard := 1
  const TierPremium := 2
  const TierVIP := 3

  const Names: seq<string> := ["", "standard", "premium", "vip"]

  const Enum: Codec := Table(
    invalidSuffix := " is not a valid Tier",
    labels := map[1 := Names[1], 2 := Names[2], 3 := Names[3]],
    values := map[Names[1] := 1, Names[2] := 2, Names[3] := 3],
    cn := Indexed(["", "标准会员", "高级会员", "VIP"], TierStandard, TierPremium),
    en := Indexed(["", "Standard", "Premium", "VIP"], TierStandard, TierPremium),
    sc := NoDisplay,
    json := Discard,
    scan := ScanBytesDiscard(ErrIncompatible),
    valuer := NilWhenUnlabelled)

  /**
   * The labels are standard, premium and vip for ordinals 1..3 and ParseTier
   * inverts them; unknown input gives TierNull with an error. The display
   * strings exist for Standard and Premium only: TierVIP has a label but
   * displays as "", because the guard stops at TierPremium.
   */
  lemma Text(x: int, s: string)
    ensures Lists(Enum, Names)
    ensures Parse(Enum, "advanced").err.Some? && Parse(Enum, "advanced").value == TierNull
    ensures Parse(Enum, s).err.Some? ==> Parse(Enum, s) == Outcome(TierNull, Some(Errorf(s + " is not a valid Tier")))
    ensures TierStandard <= x <= TierVIP ==> Parse(Enum, String(Enum, x)) == Outcome(x, None)
    ensures Localize(Enum.cn, x) != "" <==> x == TierStandard || x == TierPremium
    ensures Localize(Enum.en, x) != "" <==> x == TierStandard || x == TierPremium
    ensures String(Enum, TierVIP) == "vip" && Localize(Enum.cn, TierVIP) == "" && Localize(Enum.en, TierVIP) == ""
  {
    ListedText(Enum, Names, x, s);
    assert "advanced" !in Names[1..];
  }

  /**
   * UnmarshalJSON is lenient: JSON null gives TierNull without error. Scan of
   * unrecognised bytes also gives TierNull without error.
   */
  lemma Decoders(prev: int, s: string)
    ensures UnmarshalJson(Enum, prev, JString(s)) == Outcome(Parse(Enum, s).value, None)
    ensures UnmarshalJson(Enum, prev, JNull) == Outcome(TierNull, None)
    ensures UnmarshalJson(Enum, prev, JOther) == Outcome(prev, Some(JsonNotString))
    ensures Scan(Enum, prev, SNull) == Outcome(TierNull, None)
    ensures Scan(Enum, prev, SBytes(s)) == Outcome(Parse(Enum, s).value, None)
    ensures Scan(Enum, prev, SBytes("invalid")) == Outcome(TierNull, None)
    ensures Scan(Enum, prev, SString(s)) == Outcome(prev, Some(ErrIncompatible))
    ensures Scan(Enum, prev, SOther) == Outcome(prev, Some(ErrIncompatible))
  {
  }

  /** MarshalJSON: TierNull is `null`, labelled tiers their quoted label; Value: TierNull is nil, others the label. */
  lemma Encoders(prev: int, x: int)
    ensures MarshalJsonBytes(Enum, TierNull) == "null"
    ensures MarshalJsonBytes(Enum, TierStandard) == "\"standard\""
    ensures MarshalJsonBytes(Enum, TierPremium) == "\"premium\""
    ensures Value(Enum, TierNull) == None
    ensures Value(Enum, TierStandard) == Some("standard") && Value(Enum, TierPremium) == Some("premium")
    ensures TierStandard <= x <= TierVIP ==> Scan(Enum, prev, Stored(Value(Enum, x))) == Outcome(x, None)
  {
    SqlRoundTrip(Enum, prev, x);
  }
}

=== FILE: http.dfy ===
/**
 * The parts of Go's net/http the response packages use: the status codes,
 * and `http.Header` with its Add, Set and Get methods. Keys are compared as
 * written. Go's methods first canonicalise the key (textproto's
 * CanonicalMIMEHeaderKey); every key the core passes to Add and Set
 * (Content-Type, Cache-Control, Pragma) is already canonical, so storing
 * as written agrees with Go there. A header built as a map literal keeps its
 * key as written in Go too, and that is what goes on the wire.
 */
module Http {

  const StatusOK: int := 200
  const StatusNoContent: int := 204
  const StatusBadRequest: int := 400
  const StatusUnauthorized: int := 401
  const StatusForbidden: int := 403
  const StatusNotFound: int := 404
  const StatusUnprocessableEntity: int := 422
  const StatusTooManyRequests: int := 429
  const StatusInternalServerError: int := 500

  /** A client-error (4xx) or server-error (5xx) status. */
  predicate IsErrorStatus(code: int) {
    400 <= code <= 599
  }

  /** The validation codes both response packages define. */
  const CodeMissing: string := "missing"
  const CodeMissingField: string := "missing_field"
  const CodeInvalid: string := "invalid"
  const CodeAlreadyExists: string := "already_exists"

  /** http.Header: each key has the list of its values. */
  type Header = map<string, seq<string>>

  /** The first value stored under the key as written, or "" (Header.Get without canonicalisation). */
  function Get(h: Header, key: string): (v: string)
    ensures key in h && |h[key]| > 0 ==> v == h[key][0]
    ensures key !in h || h[key] == [] ==> v == ""
  {
    if key in h && |h[key]| > 0 then h[key][0] else ""
  }

  /** Every value stored under the key as written, in order (Go's `h[key]`). */
  function Values(h: Header, key: string): (vs: seq<string>)
    ensures key in h ==> vs == h[key]
    ensures key !in h ==> vs == []
  {
    if key in h then h[key] else []
  }

  /** Header.Add: appends a value to the key's list; every other key is untouched. */
  function Add(h: Header, key: string, value: string): (r: Header)
    ensures Values(r, key) == Values(h, key) + [value]
    ensures forall k | k != key :: Values(r, k) == Values(h, k)
    ensures r.Keys == h.Keys + {key}
  {
    h[key := Values(h, key) + [value]]
  }

  /** Header.Set: the key's list becomes exactly the value; every other key is untouched. */
  function Set(h: Header, key: string, value: string): (r: Header)
    ensures Values(r, key) == [value]
    ensures Get(r, key) == value
    ensures forall k | k != key :: Values(r, k) == Values(h, k)
    ensures r.Keys == h.Keys + {key}
  {
    h[key := [value]]
  }

  /** Set forgets what Add had appended: only the last Set counts. */
  lemma SetAfterAdd(h: Header, key: string, a: string, b: string)
    ensures Set(Add(h, key, a), key, b) == Set(h, key, b)
  {
  }
}

=== FILE: pagination.dfy ===
/**
 * pagination.go: the page and page size of a list request, and the SQL
 * offset they give. Page and Limit are int64 in the source; the model uses
 * unbounded integers.
 */
module Paging {
  import opened Wrappers
  import opened Errors
  import opened Text
  import opened Params

  datatype Pagination = Pagination(page: int, limit: int)

  /** The page size used when none (or an unusable one) is given. */
  const DefaultLimit: int := 20

  /** NewPagination: a page below 1 becomes 1; the limit is taken as given. */
  function NewPagination(p: int, limit: int): (r: Pagination)
    ensures r.page >= 1
    ensures p >= 1 ==> r.page == p
    ensures p < 1 ==> r.page == 1
    ensures r.limit == limit
  {
    Pagination(if p < 1 then 1 else p, limit)
  }

  /** Both fields at least 1: what Normalize establishes. */
  predicate Normal(p: Pagination) {
    p.page >= 1 && p.limit >= 1
  }

  /**
   * Normalize: a page below 1 becomes 1 and a limit below 1 becomes 20;
   * fields already at least 1 are kept.
   */
  function Normalize(p: Pagination): (r: Pagination)
    ensures Normal(r)
    ensures p.page >= 1 ==> r.page == p.page
    ensures p.limit >= 1 ==> r.limit == p.limit
    ensures p.page < 1 ==> r.page == 1
    ensures p.limit < 1 ==> r.limit == DefaultLimit
    ensures Normal(p) ==> r == p
  {
    Pagination(if p.page < 1 then 1 else p.page, if p.limit < 1 then DefaultLimit else p.limit)
  }

  /** Normalizing twice is normalizing once. */
  lemma NormalizeIdempotent(p: Pagination)
    ensures Normalize(Normalize(p)) == Normalize(p)
  {
  }

  /** Offset: how many rows the pages before this one hold. */
  function Offset(p: Pagination): (n: int)
    ensures p.page == 1 ==> n == 0
    ensures Normal(p) ==> n >= 0
  {
    (p.page - 1) * p.limit
  }

  /**
   * Consecutive pages tile the rows: the next page starts where this one
   * ends, and for a normal pagination the offset is a multiple of the limit
   * that gives the page back.
   */
  lemma OffsetTiles(p: Pagination)
    ensures Offset(Pagination(p.page + 1, p.limit)) == Offset(p) + p.limit
    ensures Normal(p) ==> Offset(p) % p.limit == 0 && Offset(p) / p.limit + 1 == p.page
  {
    if Normal(p) {
      MulDiv(p.page - 1, p.limit);
    }
  }

  lemma MulDiv(a: nat, b: int)
    requires b >= 1
    ensures (a * b) % b == 0 && (a * b) / b == a
  {
    var q := (a * b) / b;
    var r := (a * b) % b;
    assert a * b == q * b + r && 0 <= r < b;
  }

  /**
   * GetPagination: `page` and `per_page` from the query. The page is 1 unless
   * `page` holds an integer of at least 1; the limit is 20 unless `per_page`
   * holds an integer, which is then kept even if it is not positive.
   */
  function GetPagination(form: Form): (r: Pagination)
    ensures r.page >= 1
    ensures var page := ToInt(GetQueryParam(form, "page"));
      r.page == (if page.err.None? && page.value >= 1 then page.value else 1)
    ensures var perPage := ToInt(GetQueryParam(form, "per_page"));
      r.limit == (if perPage.err.None? then perPage.value else DefaultLimit)
  {
    var page := ToInt(GetQueryParam(form, "page")).value;
    var perPage := ToInt(GetQueryParam(form, "per_page"));
    NewPagination(page, if perPage.err.Some? then DefaultLimit else perPage.value)
  }

  /** An empty query asks for the first page of 20 rows, at offset 0. */
  lemma GetPaginationDefault()
    ensures GetPagination(map[]) == Pagination(1, DefaultLimit)
    ensures Offset(GetPagination(map[])) == 0
  {
    BlankIsMissing(map[], "page");
    BlankIsMissing(map[], "per_page");
  }
}

=== FILE: param.dfy ===
/**
 * param.go: a query parameter read from a parsed request form, and its
 * conversions to string, integer and boolean.
 *
 * The form is `url.Values`, a map from key to the values given for it; the
 * request itself, and the parsing that fills its form, are outside the model.
 */
module Params {
  import opened Wrappers
  import opened Errors
  import opened Text

  type Form = map<string, seq<string>>

  /** A key and its value with the surrounding white space removed. */
  datatype Param = Param(key: string, value: string)

  /** url.Values.Get: the first value given for the key, or "" when there is none. */
  function FormGet(form: Form, key: string): (v: string)
    ensures key !in form || form[key] == [] ==> v == ""
    ensures key in form && form[key] != [] ==> v == form[key][0]
  {
    if key in form && |form[key]| > 0 then form[key][0] else ""
  }

  /**
   * GetQueryParam: the param for `key`. Its value never starts or ends with
   * white space; it is empty exactly when the key is absent, has no value, or
   * its first value is all white space; a value without surrounding white
   * space is kept as it is.
   */
  function GetQueryParam(form: Form, key: string): (p: Param)
    ensures p.key == key
    ensures |p.value| > 0 ==> !IsSpace(p.value[0]) && !IsSpace(p.value[|p.value| - 1])
    ensures p.value == "" <==> AllSpace(FormGet(form, key))
    ensures var raw := FormGet(form, key);
      |raw| > 0 && !IsSpace(raw[0]) && !IsSpace(raw[|raw| - 1]) ==> p.value == raw
  {
    Param(key, TrimSpace(FormGet(form, key)))
  }

  /** The error for a missing value: "<key> have empty value". */
  function EmptyValue(key: string): Error {
    Errorf(key + " have empty value")
  }

  /** ToString: the value, or an error naming the key when it is empty. */
  function ToString(p: Param): (r: Ret<string>)
    ensures r.err.None? <==> p.value != ""
    ensures r.err.None? ==> r.value == p.value
    ensures r.err.Some? ==> r == Ret("", Some(EmptyValue(p.key)))
  {
    if p.value == "" then Ret("", Some(EmptyValue(p.key)))
    else Ret(p.value, None)
  }

  /**
   * ToInt: the value as a 64-bit decimal integer. An empty value is an error
   * naming the key; a syntax or range error from strconv is passed on. Every
   * error comes with 0. strconv reads digits left to right and reports a
   * range error as soon as they exceed 2^64-1, so such a digit run is a range
   * error whatever follows it.
   */
  function ToInt(p: Param): (r: Ret<int>)
    ensures r.err.Some? ==> r.value == 0
    ensures r.err.None? <==> p.value != "" && ParseInt(p.value).Some? && IsInt64(ParseInt(p.value).value)
    ensures r.err.None? ==> r.value == ParseInt(p.value).value
    ensures p.value == "" ==> r.err == Some(EmptyValue(p.key))
    ensures p.value != "" && ParseInt(p.value).None? && !OverflowsUint64(p.value) ==> r.err == Some(NumSyntax)
    ensures p.value != "" && (OverflowsUint64(p.value) || (ParseInt(p.value).Some? && !IsInt64(ParseInt(p.value).value))) ==> r.err == Some(NumRange)
  {
    if p.value == "" then Ret(0, Some(EmptyValue(p.key)))
    else
      var n := ParseInt64(p.value);
      if n.err.Some? then Ret(0, n.err) else Ret(n.value, None)
  }

  /** ToBool: strconv.ParseBool of the value; an empty value is a syntax error like any other. */
  function ToBool(p: Param): (r: Ret<bool>)
    ensures r.err.None? <==> ParseBool(p.value).Some?
    ensures r.err.None? ==> r.value == ParseBool(p.value).value
    ensures r.err.Some? ==> r == Ret(false, Some(NumSyntax))
  {
    match ParseBool(p.value)
    case Some(b) => Ret(b, None)
    case None => Ret(false, Some(NumSyntax))
  }

  /** A value of white space only reads as missing: ToString and ToInt both report the empty-value error. */
  lemma BlankIsMissing(form: Form, key: string)
    requires AllSpace(FormGet(form, key))
    ensures ToString(GetQueryParam(form, key)) == Ret("", Some(EmptyValue(key)))
    ensures ToInt(GetQueryParam(form, key)) == Ret(0, Some(EmptyValue(key)))
  {
  }

  /**
   * The integer round trip: a form value holding a formatted 64-bit integer,
   * padded with spaces or not, reads back as that integer.
   */
  lemma ToIntFormat(key: string, n: int, pad: string)
    requires IsInt64(n) && AllSpace(pad)
    ensures ToInt(GetQueryParam(map[key := [pad + FormatInt(n) + pad]], key)) == Ret(n, None)
  {
    var s := FormatInt(n);
    var raw := pad + s + pad;
    ParseFormat(n);
    TrimAround(pad, s);
  }

  /**
   * Which error wins when a number is followed by junk: the syntax error if
   * the number fits in a uint64, the range error if it does not, since the
   * digit loop gives up on the overflow before it reaches the junk.
   */
  lemma RangeBeforeSyntax(key: string, n: int, junk: string)
    requires |junk| > 0 && !IsDigit(junk[0])
    ensures ToInt(Param(key, FormatInt(n) + junk)) == Ret(0, Some(if -MaxUint64 <= n <= MaxUint64 then NumSyntax else NumRange))
  {
    ParseNumberThenJunk(n, junk);
  }

  /** Trimming removes exactly the white space around a text that starts and ends with none. */
  lemma TrimAround(pad: string, s: string)
    requires AllSpace(pad) && |s| > 0 && !IsSpace(s[0]) && !IsSpace(s[|s| - 1])
    ensures TrimSpace(pad + s + pad) == s
  {
    assert pad + s + pad == pad + (s + pad);
    assert (s + pad)[0] == s[0];
    TrimLeftPadded(pad, s + pad);
    assert TrimLeft(pad + s + pad) == s + pad;
    TrimRightPadded(s, pad);
    assert TrimRight(s + pad) == s;
  }

  lemma {:induction false} TrimLeftPadded(pad: string, s: string)
    requires AllSpace(pad) && |s| > 0 && !IsSpace(s[0])
    ensures TrimLeft(pad + s) == s
    decreases |pad|
  {
    if |pad| > 0 {
      assert (pad + s)[1..] == pad[1..] + s;
      TrimLeftPadded(pad[1..], s);
    }
  }

  lemma {:induction false} TrimRightPadded(s: string, pad: string)
    requires AllSpace(pad) && |s| > 0 && !IsSpace(s[|s| - 1])
    ensures TrimRight(s + pad) == s
    decreases |pad|
  {
    if |pad| > 0 {
      assert (s + pad)[..|s + pad| - 1] == s + pad[..|pad| - 1];
      TrimRightPadded(s, pad[..|pad| - 1]);
    }
  }

  /** ToBool accepts exactly strconv's twelve spellings. */
  lemma ToBoolSpellings(p: Param)
    ensures ToBool(p) == Ret(true, None) <==> p.value in {"1", "t", "T", "TRUE", "true", "True"}
    ensures ToBool(p) == Ret(false, None) <==> p.value in {"0", "f", "F", "FALSE", "false", "False"}
  {
  }
}

=== FILE: render_response.dfy ===
/**
 * render/response.go: the error envelope an API returns for a status of 400
 * and above, its constructors, and the mapping of data-layer errors to it.
 */
module Render {
  import opened Wrappers
  import opened Sql
  import opened Text
  import opened Http

  /** The field that failed validation, and why. `message` is not part of the JSON. */
  datatype ValidationError = ValidationError(message: string, field: string, code: string) {
    /** Error() of *ValidationError: the message. */
    function Error(): (s: string)
      ensures s == message
    {
      message
    }
  }

  /** The response body for an error status; `invalid` is the optional "error" member. */
  datatype ResponseError = ResponseError(statusCode: int, message: string, invalid: Option<ValidationError>)

  const CodePrefix: string := "code="
  const MessageSeparator: string := ", message="

  /**
   * Error() of *ResponseError: "code=<status>, message=<message>". The text
   * starts with "code=", ends with ", message=" and the message verbatim, and
   * what lies between is the status in decimal.
   */
  function ErrorText(re: ResponseError): (s: string)
    ensures |s| > |CodePrefix| + |MessageSeparator| + |re.message|
    ensures s[..|CodePrefix|] == CodePrefix
    ensures s[|s| - |re.message| - |MessageSeparator|..] == MessageSeparator + re.message
    ensures ParseInt(s[|CodePrefix|..|s| - |re.message| - |MessageSeparator|]) == Some(re.statusCode)
  {
    var digits := FormatInt(re.statusCode);
    var tail := MessageSeparator + re.message;
    Halves(CodePrefix, digits + tail);
    Halves(digits, tail);
    ParseFormat(re.statusCode);
    var s := CodePrefix + (digits + tail);
    assert s[|CodePrefix|..] == digits + tail;
    assert s[|s| - |tail|..] == tail;
    assert s[|CodePrefix|..|s| - |tail|] == digits;
    s
  }

  /**
   * Reading Error() text back: the status between "code=" and the first
   * comma, and the message after ", message=". None when the text is not of
   * that shape.
   */
  function ReadErrorText(s: string): (r: Option<(int, string)>)
    ensures r.Some? ==> |s| >= |CodePrefix| && s[..|CodePrefix|] == CodePrefix
  {
    var n := |CodePrefix|;
    if |s| < n || s[..n] != CodePrefix then None
    else
      var rest := s[n..];
      var i := IndexOf(rest, ',');
      var tail := rest[i..];
      var m := |MessageSeparator|;
      if |tail| < m || tail[..m] != MessageSeparator then None
      else match ParseInt(rest[..i])
        case None => None
        case Some(code) => Some((code, tail[m..]))
  }

  /** A formatted integer holds no comma. */
  lemma FormatIntNoComma(n: int)
    ensures ',' !in FormatInt(n)
  {
    var d := FormatNat(if n < 0 then -n else n);
    if n < 0 {
      assert FormatInt(n) == ['-'] + d;
    }
  }

  /** The two halves of a concatenation. */
  lemma Halves(a: string, b: string)
    ensures (a + b)[..|a|] == a && (a + b)[|a|..] == b
  {
  }

  /** The first `c` of `a + b` is where `b` starts, when `a` holds none and `b` starts with one. */
  lemma IndexOfAt(a: string, b: string, c: char)
    requires c !in a && |b| > 0 && b[0] == c
    ensures IndexOf(a + b, c) == |a|
  {
    assert (a + b)[|a|] == c;
  }

  /** Error() text loses nothing: the status and the whole message, commas included, read back. */
  lemma ErrorTextReadsBack(re: ResponseError)
    ensures ReadErrorText(ErrorText(re)) == Some((re.statusCode, re.message))
  {
    var digits := FormatInt(re.statusCode);
    var tail := MessageSeparator + re.message;
    var rest := digits + tail;
    var s := ErrorText(re);
    assert s == CodePrefix + rest;
    Halves(CodePrefix, rest);
    assert |CodePrefix| == 5 && s[5..] == rest;
    FormatIntNoComma(re.statusCode);
    assert tail[0] == ',';
    IndexOfAt(digits, tail, ',');
    Halves(digits, tail);
    assert rest[|digits|..] == tail && rest[..|digits|] == digits;
    Halves(MessageSeparator, re.message);
    assert |MessageSeparator| == 10 && tail[..10] == MessageSeparator && tail[10..] == re.message;
    ParseFormat(re.statusCode);
  }

  /** NewResponseError: the status and message as given, with no validation detail. */
  function NewResponseError(code: int, msg: string): (re: ResponseError)
    ensures re.statusCode == code && re.message == msg && re.invalid.None?
  {
    ResponseError(code, msg, None)
  }

  /** NewNotFound: 404 carrying the message unchanged (even ""), with no validation detail. */
  function NewNotFound(msg: string): (re: ResponseError)
    ensures re.statusCode == StatusNotFound && re.message == msg && re.invalid.None?
  {
    NewResponseError(StatusNotFound, msg)
  }

  /** NewUnauthorized: 401, with "Requires authorization." standing in for an empty message. */
  function NewUnauthorized(msg: string): (re: ResponseError)
    ensures re.statusCode == StatusUnauthorized && re.invalid.None?
    ensures msg != "" ==> re.message == msg
    ensures msg == "" ==> re.message == "Requires authorization."
    ensures re.message != ""
  {
    NewResponseError(StatusUnauthorized, if msg == "" then "Requires authorization." else msg)
  }

  /** NewForbidden: 403 carrying the message unchanged (even ""), with no validation detail. */
  function NewForbidden(msg: string): (re: ResponseError)
    ensures re.statusCode == StatusForbidden && re.message == msg && re.invalid.None?
  {
    NewResponseError(StatusForbidden, msg)
  }

  /** NewBadRequest: 400 carrying the message unchanged (even ""), with no validation detail. */
  function NewBadRequest(msg: string): (re: ResponseError)
    ensures re.statusCode == StatusBadRequest && re.message == msg && re.invalid.None?
  {
    NewResponseError(StatusBadRequest, msg)
  }

  /** NewUnprocessable: 422, taking the message from the validation error and keeping it as the detail. */
  function NewUnprocessable(ve: ValidationError): (re: ResponseError)
    ensures re.statusCode == StatusUnprocessableEntity
    ensures re.message == ve.Error()
    ensures re.invalid == Some(ve)
  {
    ResponseError(StatusUnprocessableEntity, ve.message, Some(ve))
  }

  /** NewAlreadyExists: 422 "Duplicate entry" for the field, with code "already_exists" (a MySQL 1062 error). */
  function NewAlreadyExists(field: string): (re: ResponseError)
    ensures re.statusCode == StatusUnprocessableEntity && re.message == "Duplicate entry"
    ensures re.invalid.Some? && re.invalid.value.field == field && re.invalid.value.code == CodeAlreadyExists
    ensures re.invalid.value.Error() == re.message
  {
    NewUnprocessable(ValidationError("Duplicate entry", field, CodeAlreadyExists))
  }

  /** NewTooManyRequests: 429 carrying the message unchanged (even ""), with no validation detail. */
  function NewTooManyRequests(msg: string): (re: ResponseError)
    ensures re.statusCode == StatusTooManyRequests && re.message == msg && re.invalid.None?
  {
    NewResponseError(StatusTooManyRequests, msg)
  }

  /** NewInternalError: 500 carrying the message unchanged (even ""), with no validation detail. */
  function NewInternalError(msg: string): (re: ResponseError)
    ensures re.statusCode == StatusInternalServerError && re.message == msg && re.invalid.None?
  {
    NewResponseError(StatusInternalServerError, msg)
  }

  /**
   * NewDBError: no matching row is 404 with an empty message; any other
   * error is 500 carrying the error's text.
   */
  function NewDBError(err: DbError): (re: ResponseError)
    ensures re.invalid.None?
    ensures re.statusCode == StatusNotFound <==> err == ErrNoRows
    ensures err == ErrNoRows ==> re.message == ""
    ensures err.Other? ==> re.statusCode == StatusInternalServerError && re.message == err.text
  {
    match err
    case ErrNoRows => NewNotFound("")
    case Other(text) => NewInternalError(text)
  }

  /**
   * Every constructor yields an error status: 4xx for the client-side ones,
   * 5xx for internal and data-layer failures other than a missing row.
   */
  lemma ConstructorsGiveErrorStatus(msg: string, ve: ValidationError, err: DbError)
    ensures IsErrorStatus(NewNotFound(msg).statusCode) && NewNotFound(msg).statusCode == 404
    ensures IsErrorStatus(NewUnauthorized(msg).statusCode) && NewUnauthorized(msg).statusCode == 401
    ensures IsErrorStatus(NewForbidden(msg).statusCode) && NewForbidden(msg).statusCode == 403
    ensures IsErrorStatus(NewBadRequest(msg).statusCode) && NewBadRequest(msg).statusCode == 400
    ensures IsErrorStatus(NewUnprocessable(ve).statusCode) && NewUnprocessable(ve).statusCode == 422
    ensures IsErrorStatus(NewTooManyRequests(msg).statusCode) && NewTooManyRequests(msg).statusCode == 429
    ensures IsErrorStatus(NewInternalError(msg).statusCode) && NewInternalError(msg).statusCode == 500
    ensures IsErrorStatus(NewDBError(err).statusCode)
  {
  }
}

=== FILE: semver.dfy ===
/**
 * semver/semver.go: a version string "major.minor.patch" parsed into three
 * integers, and the ordering of versions.
 *
 * Parsing splits on '.', reads each piece with strconv.Atoi (a piece that is
 * not a decimal integer counts as 0) and uses the first three pieces. The
 * source meant to pad a short version with zeros but computes the padding as
 * len(parts) - 3, so it pads only strings that already have more than three
 * pieces and indexes past the end for fewer: `ParseAsWritten` models that
 * (None standing for the index-out-of-range panic), `Parse` the padded form the
 * code evidently intends.
 */
module Semver {
  import opened Wrappers
  import opened Text

  datatype SemVer = SemVer(major: int, minor: int, patch: int)

  // ---------------------------------------------------------------------
  // Parsing
  // ---------------------------------------------------------------------

  /** strconv.Atoi with any error (syntax or 64-bit range) replaced by 0. */
  function Atoi(s: string): (n: int)
    ensures ParseInt64(s).err.None? ==> n == ParseInt(s).value
    ensures ParseInt64(s).err.Some? ==> n == 0
  {
    var r := ParseInt64(s);
    if r.err.Some? then 0 else r.value
  }

  /** The Atoi value of every '.'-separated piece, in order. */
  function Components(v: string): (ns: seq<int>)
    ensures |ns| == |Split(v, '.')| >= 1
    ensures forall k | 0 <= k < |ns| :: ns[k] == Atoi(Split(v, '.')[k])
  {
    var parts := Split(v, '.');
    seq(|parts|, k requires 0 <= k < |parts| => Atoi(parts[k]))
  }

  /**
   * Parse exactly as written: a string with fewer than two dots has fewer
   * than three pieces and panics (None); otherwise the first three pieces
   * give major, minor and patch, and later pieces are ignored.
   */
  function ParseAsWritten(v: string): (r: Option<SemVer>)
    ensures r.None? <==> multiset(v)['.'] < 2
    ensures r.Some? ==> |Split(v, '.')| >= 3 && r.value == SemVer(Atoi(Split(v, '.')[0]), Atoi(Split(v, '.')[1]), Atoi(Split(v, '.')[2]))
  {
    SplitCount(v, '.');
    var parts := Components(v);
    var gap := |parts| - 3;
    var padded := if gap > 0 then parts + seq(gap, _ => 0) else parts;
    if |padded| < 3 then None
    else Some(SemVer(padded[0], padded[1], padded[2]))
  }

  /** "1.2" has two pieces, so the source indexes parts[2] of a two-element slice. */
  lemma ShortVersionPanics()
    ensures ParseAsWritten("1.2").None?
    ensures ParseAsWritten("7").None?
  {
    assert multiset("1.2")['.'] == 1;
  }

  /**
   * The evidently intended parse: missing pieces count as 0. It agrees with
   * the source wherever the source does not panic.
   */
  function Parse(v: string): (r: SemVer)
    ensures ParseAsWritten(v).Some? ==> ParseAsWritten(v) == Some(r)
    ensures r.major == Atoi(Split(v, '.')[0])
    ensures multiset(v)['.'] == 0 ==> r.minor == 0 && r.patch == 0
    ensures multiset(v)['.'] == 1 ==> r.minor == Atoi(Split(v, '.')[1]) && r.patch == 0
  {
    SplitCount(v, '.');
    var parts := Components(v);
    var padded := if |parts| < 3 then parts + seq(3 - |parts|, _ => 0) else parts;
    SemVer(padded[0], padded[1], padded[2])
  }

  /** The padded parse of the inputs the source rejects. */
  lemma ShortVersionPadded()
    ensures Parse("1.2") == SemVer(1, 2, 0)
    ensures Parse("7") == SemVer(7, 0, 0)
  {
    assert multiset("1.2")['.'] == 1;
    assert Split("1.2", '.') == ["1", "2"] by {
      assert "1.2"[1..] == ".2" && "1.2"[..1] == "1" && "1.2"[2..] == "2";
      assert IndexOf("1.2", '.') == 1;
      assert IndexOf("2", '.') == 1;
    }
    SingleDigits();
  }

  /** The one-digit pieces of the examples above read as their digits. */
  lemma SingleDigits()
    ensures Atoi("1") == 1 && Atoi("2") == 2 && Atoi("7") == 7
  {
    Text.ParseFormat(1);
    Text.ParseFormat(2);
    Text.ParseFormat(7);
    assert FormatInt(1) == "1" && FormatInt(2) == "2" && FormatInt(7) == "7";
  }

  /** Pieces after the third do not matter, for the source and for the padded parse. */
  lemma ExtraPiecesIgnored(v: string, w: string)
    requires multiset(v)['.'] >= 2
    ensures ParseAsWritten(v + "." + w) == ParseAsWritten(v)
    ensures Parse(v + "." + w) == Parse(v)
  {
    SplitCount(v, '.');
    SplitConcat(v, '.', w);
    assert v + "." + w == v + ['.'] + w;
    assert multiset(v + "." + w)['.'] >= multiset(v)['.'];
  }

  // ---------------------------------------------------------------------
  // Writing a version back
  // ---------------------------------------------------------------------

  /** "major.minor.patch" in decimal. */
  function Format(s: SemVer): string
  {
    Join([FormatInt(s.major), FormatInt(s.minor), FormatInt(s.patch)], '.')
  }

  /** A formatted number holds no dot. */
  lemma FormatIntNoDot(n: int)
    ensures '.' !in FormatInt(n)
  {
    var d := FormatNat(if n < 0 then -n else n);
    if n < 0 {
      assert FormatInt(n) == ['-'] + d;
    }
  }

  /** Parsing a formatted version gives it back, with either parse, when its numbers are Go ints. */
  lemma ParseFormat(s: SemVer)
    requires IsInt64(s.major) && IsInt64(s.minor) && IsInt64(s.patch)
    ensures ParseAsWritten(Format(s)) == Some(s)
    ensures Parse(Format(s)) == s
  {
    var parts := [FormatInt(s.major), FormatInt(s.minor), FormatInt(s.patch)];
    FormatIntNoDot(s.major);
    FormatIntNoDot(s.minor);
    FormatIntNoDot(s.patch);
    assert SeparatorFree(parts, '.');
    SplitJoin(parts, '.');
    SplitCount(Format(s), '.');
    Text.ParseFormat(s.major);
    Text.ParseFormat(s.minor);
    Text.ParseFormat(s.patch);
  }

  // ---------------------------------------------------------------------
  // Ordering
  // ---------------------------------------------------------------------

  /** The reference order: lexicographic on (major, minor, patch). */
  predicate Before(a: SemVer, b: SemVer) {
    || a.major < b.major
    || (a.major == b.major && a.minor < b.minor)
    || (a.major == b.major && a.minor == b.minor && a.patch < b.patch)
  }

  /**
   * Compare: the first non-zero difference of major, minor and patch, so
   * negative when `a` comes first, zero when equal, positive when `b` does.
   */
  function Compare(a: SemVer, b: SemVer): (r: int)
    ensures r < 0 <==> Before(a, b)
    ensures r == 0 <==> a == b
    ensures r > 0 <==> Before(b, a)
  {
    var diff := a.major - b.major;
    if diff != 0 then diff
    else
      var diff := a.minor - b.minor;
      if diff != 0 then diff
      else a.patch - b.patch
  }

  function Equal(a: SemVer, b: SemVer): (r: bool)
    ensures r <==> a == b
  {
    Compare(a, b) == 0
  }

  function Larger(a: SemVer, b: SemVer): (r: bool)
    ensures r <==> Before(b, a)
  {
    Compare(a, b) > 0
  }

  function Smaller(a: SemVer, b: SemVer): (r: bool)
    ensures r <==> Before(a, b)
  {
    Compare(a, b) < 0
  }

  /** Swapping the operands negates Compare, so Larger is Smaller reversed. */
  lemma CompareSwap(a: SemVer, b: SemVer)
    ensures Compare(b, a) == -Compare(a, b)
    ensures Larger(a, b) <==> Smaller(b, a)
  {
  }

  /** Exactly one of Smaller, Equal and Larger holds. */
  lemma Trichotomy(a: SemVer, b: SemVer)
    ensures Smaller(a, b) || Equal(a, b) || Larger(a, b)
    ensures !(Smaller(a, b) && Equal(a, b)) && !(Smaller(a, b) && Larger(a, b)) && !(Equal(a, b) && Larger(a, b))
  {
  }

  /** Smaller is a strict order: irreflexive and transitive. */
  lemma SmallerStrictOrder(a: SemVer, b: SemVer, c: SemVer)
    ensures !Smaller(a, a)
    ensures Smaller(a, b) && Smaller(b, c) ==> Smaller(a, c)
  {
  }
}

=== FILE: string_slice.dfy ===
/**
 * string_slice.go: a list of strings stored in one text column as its
 * comma-separated join.
 */
module StringSlices {
  import opened Wrappers
  import opened Errors
  import opened Sql
  import opened Text

  /**
   * Scan on a receiver holding `prev`: NULL gives the empty list, bytes are
   * split on ',' (so they give at least one piece, "" giving [""]), and any
   * other driver value is rejected with the receiver unchanged.
   */
  function Scan(prev: seq<string>, src: Src): (r: Ret<seq<string>>)
    ensures src.SNull? ==> r == Ret([], None)
    ensures r.err.None? <==> src.SNull? || src.SBytes?
    ensures r.err.Some? ==> r == Ret(prev, Some(Errorf("incompatible type to scan")))
    ensures src.SBytes? ==> |r.value| >= 1 && SeparatorFree(r.value, ',') && Join(r.value, ',') == src.b
  {
    match src
    case SNull => Ret([], None)
    case SBytes(b) =>
      JoinSplit(b, ',');
      Ret(Split(b, ','), None)
    case _ => Ret(prev, Some(Errorf("incompatible type to scan")))
  }

  /** Value: the comma-separated join, or nil when the join is empty (no pieces, or one empty piece). */
  function Value(x: seq<string>): (v: Option<string>)
    ensures v.None? <==> x == [] || x == [""]
    ensures v.Some? ==> v.value != "" && |Split(v.value, ',')| >= |x|
  {
    JoinEmpty(x, ',');
    JoinPieces(x, ',');
    var s := Join(x, ',');
    if s == "" then None else Some(s)
  }

  /**
   * The column round trip: a list whose pieces hold no comma comes back as
   * itself, except that the empty list and the list of one empty string both
   * come back empty.
   */
  lemma RoundTrip(prev: seq<string>, x: seq<string>)
    requires SeparatorFree(x, ',')
    ensures x != [] && x != [""] ==> Scan(prev, Stored(Value(x))) == Ret(x, None)
    ensures x == [] || x == [""] ==> Scan(prev, Stored(Value(x))) == Ret([], None)
  {
    if x != [] && x != [""] {
      SplitJoin(x, ',');
    }
  }

  /** A piece holding a comma is split apart on the way back: ["a,b"] reads back as ["a", "b"]. */
  lemma CommaSplits()
    ensures Scan([], Stored(Value(["a,b"]))) == Ret(["a", "b"], None)
  {
    assert Join(["a,b"], ',') == "a,b";
    assert "a,b"[1..] == ",b" && "a,b"[..1] == "a" && "a,b"[2..] == "b";
    assert IndexOf("a,b", ',') == 1;
    assert IndexOf("b", ',') == 1;
    assert Split("b", ',') == ["b"];
    assert Split("a,b", ',') == ["a"] + Split("b", ',');
    assert ["a"] + ["b"] == ["a", "b"];
    assert Split("a,b", ',') == ["a", "b"];
    assert Value(["a,b"]) == Some("a,b");
    assert Scan([], SBytes("a,b")) == Ret(Split("a,b", ','), None);
  }

  /**
   * Commas are the one obstacle to the round trip: a list with a piece that
   * holds a comma never reads back as itself.
   */
  lemma CommaBreaksRoundTrip(prev: seq<string>, x: seq<string>)
    requires !SeparatorFree(x, ',')
    ensures Scan(prev, Stored(Value(x))) != Ret(x, None)
  {
    var r := Scan(prev, Stored(Value(x)));
    assert SeparatorFree(r.value, ',');
  }

  /** The other direction: every stored text except "" reads back and writes again unchanged. */
  lemma StoredText(prev: seq<string>, b: string)
    requires b != ""
    ensures Value(Scan(prev, SBytes(b)).value) == Some(b)
  {
    JoinSplit(b, ',');
    JoinEmpty(Split(b, ','), ',');
  }
}

=== FILE: text.dfy ===
/**
 * The pieces of Go's `strings` and `strconv` packages the modelled code
 * relies on: splitting and joining on a one-character separator,
 * `strings.TrimSpace`, and decimal conversion as done by `strconv.Atoi`,
 * `strconv.ParseInt(s, 10, 0)` (through the digit loop of `strconv.ParseUint`),
 * `strconv.ParseBool` and the `%d` verb.
 */
module Text {
  import opened Wrappers
  import opened Errors

  // ---------------------------------------------------------------------
  // strings.Split and strings.Join with a one-character separator
  // ---------------------------------------------------------------------

  /** Position of the first `c` in `s`, or |s| when there is none. */
  function IndexOf(s: string, c: char): (i: nat)
    ensures i <= |s|
    ensures i < |s| ==> s[i] == c
    ensures forall k | 0 <= k < i :: s[k] != c
  {
    if |s| == 0 then 0
    else if s[0] == c then 0
    else 1 + IndexOf(s[1..], c)
  }

  /**
   * strings.Split(s, sep): the pieces between separators. There is always at
   * least one piece (Split("") is [""]) and no piece holds the separator.
   */
  function Split(s: string, sep: char): (parts: seq<string>)
    ensures |parts| >= 1
    ensures forall k | 0 <= k < |parts| :: sep !in parts[k]
    decreases |s|
  {
    var i := IndexOf(s, sep);
    if i == |s| then [s]
    else [s[..i]] + Split(s[i + 1..], sep)
  }

  /** strings.Join(parts, sep). */
  function Join(parts: seq<string>, sep: char): string
  {
    if |parts| == 0 then ""
    else if |parts| == 1 then parts[0]
    else parts[0] + [sep] + Join(parts[1..], sep)
  }

  /** No piece contains the separator. */
  predicate SeparatorFree(parts: seq<string>, sep: char) {
    forall k | 0 <= k < |parts| :: sep !in parts[k]
  }

  /** Joining the pieces of a split gives back the original string. */
  lemma {:induction false} JoinSplit(s: string, sep: char)
    ensures Join(Split(s, sep), sep) == s
    decreases |s|
  {
    var i := IndexOf(s, sep);
    if i < |s| {
      var rest := Split(s[i + 1..], sep);
      JoinSplit(s[i + 1..], sep);
      assert Split(s, sep) == [s[..i]] + rest;
      assert ([s[..i]] + rest)[1..] == rest;
      assert s == s[..i] + [sep] + s[i + 1..];
    }
  }

  /** Without the character, the search runs to the end. */
  lemma IndexOfAbsent(s: string, c: char)
    requires c !in s
    ensures IndexOf(s, c) == |s|
  {
  }

  /** The first separator of `a + [sep] + b` is the one after `a`. */
  lemma IndexOfJoined(a: string, sep: char, b: string)
    requires sep !in a
    ensures IndexOf(a + [sep] + b, sep) == |a|
  {
    var s := a + [sep] + b;
    var i := IndexOf(s, sep);
    assert s[|a|] == sep;
  }

  /**
   * Splitting a join gives back the pieces, provided there is at least one
   * piece and no piece holds the separator.
   */
  lemma {:induction false} SplitJoin(parts: seq<string>, sep: char)
    requires |parts| >= 1
    requires SeparatorFree(parts, sep)
    ensures Split(Join(parts, sep), sep) == parts
    decreases |parts|
  {
    if |parts| == 1 {
      IndexOfAbsent(parts[0], sep);
    } else {
      var rest := Join(parts[1..], sep);
      var s := parts[0] + [sep] + rest;
      assert sep !in parts[0];
      IndexOfJoined(parts[0], sep, rest);
      assert s[..|parts[0]|] == parts[0];
      assert s[|parts[0]| + 1..] == rest;
      SplitJoin(parts[1..], sep);
      assert parts == [parts[0]] + parts[1..];
    }
  }

  /** The first separator of `a` is also the first separator of any extension of `a`. */
  lemma IndexOfExtended(a: string, c: string, sep: char)
    requires IndexOf(a, sep) < |a|
    ensures IndexOf(a + c, sep) == IndexOf(a, sep)
  {
    var i := IndexOf(a, sep);
    assert (a + c)[i] == sep;
  }

  /** Splitting at a separator splits the two sides independently. */
  lemma {:induction false} SplitConcat(a: string, sep: char, b: string)
    ensures Split(a + [sep] + b, sep) == Split(a, sep) + Split(b, sep)
    decreases |a|
  {
    var s := a + [sep] + b;
    var i := IndexOf(a, sep);
    if i == |a| {
      IndexOfJoined(a, sep, b);
      assert s[..|a|] == a && s[|a| + 1..] == b;
    } else {
      IndexOfExtended(a, [sep] + b, sep);
      assert s == a + ([sep] + b);
      assert s[..i] == a[..i];
      assert s[i + 1..] == a[i + 1..] + [sep] + b;
      SplitConcat(a[i + 1..], sep, b);
    }
  }

  /** There is one more piece than there are separators. */
  lemma {:induction false} SplitCount(s: string, sep: char)
    ensures |Split(s, sep)| == multiset(s)[sep] + 1
    decreases |s|
  {
    var i := IndexOf(s, sep);
    if i == |s| {
      assert sep !in multiset(s);
    } else {
      assert s == s[..i] + [sep] + s[i + 1..];
      assert sep !in multiset(s[..i]);
      SplitCount(s[i + 1..], sep);
    }
  }

  /** A join holds at least one separator between each two pieces. */
  lemma {:induction false} JoinCount(parts: seq<string>, sep: char)
    ensures multiset(Join(parts, sep))[sep] >= |parts| - 1
    decreases |parts|
  {
    if |parts| >= 2 {
      JoinCount(parts[1..], sep);
      assert multiset(Join(parts, sep)) == multiset(parts[0]) + multiset([sep]) + multiset(Join(parts[1..], sep));
    }
  }

  /** Splitting a join gives at least as many pieces as were joined. */
  lemma JoinPieces(parts: seq<string>, sep: char)
    ensures |Split(Join(parts, sep), sep)| >= |parts|
  {
    JoinCount(parts, sep);
    SplitCount(Join(parts, sep), sep);
  }

  /** A join is empty exactly for no pieces or one empty piece. */
  lemma JoinEmpty(parts: seq<string>, sep: char)
    ensures Join(parts, sep) == "" <==> parts == [] || parts == [""]
  {
    if |parts| >= 2 {
      assert |Join(parts, sep)| >= 1;
    }
  }

  // ---------------------------------------------------------------------
  // strings.TrimSpace
  // ---------------------------------------------------------------------

  /** unicode.IsSpace: the Latin-1 spaces and the other White_Space code points. */
  predicate IsSpace(c: char) {
    || c == '\t' || c == '\n' || c == '\U{000B}' || c == '\U{000C}' || c == '\r' || c == ' '
    || c == '\U{0085}' || c == '\U{00A0}' || c == '\U{1680}'
    || ('\U{2000}' <= c <= '\U{200A}')
    || c == '\U{2028}' || c == '\U{2029}' || c == '\U{202F}' || c == '\U{205F}' || c == '\U{3000}'
  }

  predicate AllSpace(s: string) {
    forall k | 0 <= k < |s| :: IsSpace(s[k])
  }

  /** Prepending white space keeps a string all white space. */
  lemma AllSpaceCons(c: char, t: string)
    requires IsSpace(c) && AllSpace(t)
    ensures AllSpace([c] + t)
  {
    forall k | 0 <= k < |[c] + t| ensures IsSpace(([c] + t)[k]) {
      if k > 0 {
        assert ([c] + t)[k] == t[k - 1];
      }
    }
  }

  /** Appending white space keeps a string all white space. */
  lemma AllSpaceSnoc(t: string, c: char)
    requires AllSpace(t) && IsSpace(c)
    ensures AllSpace(t + [c])
  {
    forall k | 0 <= k < |t + [c]| ensures IsSpace((t + [c])[k]) {
      if k < |t| {
        assert (t + [c])[k] == t[k];
      }
    }
  }

  /** Drops the leading white space: the result is a suffix of `s`. */
  function TrimLeft(s: string): (r: string)
    ensures |r| <= |s| && r == s[|s| - |r|..]
    ensures AllSpace(s[..|s| - |r|])
    ensures |r| > 0 ==> !IsSpace(r[0])
  {
    if |s| > 0 && IsSpace(s[0]) then
      var t := s[1..];
      var r := TrimLeft(t);
      var cut := |t| - |r|;
      assert r == s[cut + 1..] by {
        assert t[cut..] == s[cut + 1..];
      }
      assert AllSpace(s[..cut + 1]) by {
        AllSpaceCons(s[0], t[..cut]);
        assert s[..cut + 1] == [s[0]] + t[..cut];
      }
      r
    else
      assert s[..0] == [];
      s
  }

  /** Drops the trailing white space: the result is a prefix of `s`. */
  function TrimRight(s: string): (r: string)
    ensures |r| <= |s| && r == s[..|r|]
    ensures AllSpace(s[|r|..])
    ensures |r| > 0 ==> !IsSpace(r[|r| - 1])
  {
    if |s| > 0 && IsSpace(s[|s| - 1]) then
      var t := s[..|s| - 1];
      var r := TrimRight(t);
      assert r == s[..|r|] by {
        assert t[..|r|] == s[..|r|];
      }
      assert AllSpace(s[|r|..]) by {
        AllSpaceSnoc(t[|r|..], s[|s| - 1]);
        assert s[|r|..] == t[|r|..] + [s[|s| - 1]];
      }
      r
    else
      assert s[|s|..] == [];
      s
  }

  /**
   * strings.TrimSpace: the result is the part of `s` between its leading and
   * trailing white space; it is empty exactly when `s` is all white space, and
   * `s` itself when `s` neither starts nor ends with white space.
   */
  function TrimSpace(s: string): (r: string)
    ensures |r| <= |s|
    ensures |r| > 0 ==> !IsSpace(r[0]) && !IsSpace(r[|r| - 1])
    ensures r == "" <==> AllSpace(s)
    ensures (|s| == 0 || (!IsSpace(s[0]) && !IsSpace(s[|s| - 1]))) ==> r == s
  {
    var left := TrimLeft(s);
    var r := TrimRight(left);
    assert r == "" ==> AllSpace(s) by {
      if r == "" {
        assert s == s[..|s| - |left|] + left;
        assert left == left[|r|..];
      }
    }
    assert r != "" ==> r[0] == left[0];
    r
  }

  // ---------------------------------------------------------------------
  // Decimal integers
  // ---------------------------------------------------------------------

  predicate IsDigit(c: char) {
    '0' <= c <= '9'
  }

  predicate AllDigits(s: string) {
    forall k | 0 <= k < |s| :: IsDigit(s[k])
  }

  function DigitChar(d: nat): (c: char)
    requires d < 10
    ensures IsDigit(c)
  {
    ('0' as int + d) as char
  }

  /** The value of a string of decimal digits, most significant first. */
  function DigitsValue(s: string): nat
    requires AllDigits(s)
  {
    if |s| == 0 then 0
    else DigitsValue(s[..|s| - 1]) * 10 + (s[|s| - 1] as int - '0' as int)
  }

  /**
   * strconv.ParseInt(s, 10, 0) and strconv.Atoi: an optional '+' or '-'
   * followed by one or more decimal digits; anything else is a syntax error.
   */
  function ParseInt(s: string): (r: Option<int>)
    ensures s == "" ==> r.None?
    ensures |s| > 0 && AllDigits(s) ==> r == Some(DigitsValue(s))
    ensures |s| > 0 && !AllDigits(s) && s[0] != '+' && s[0] != '-' ==> r.None?
    ensures s == "+" || s == "-" ==> r.None?
  {
    if |s| == 0 then None
    else if s[0] == '+' || s[0] == '-' then
      var digits := s[1..];
      if |digits| > 0 && AllDigits(digits) then
        var v: int := DigitsValue(digits);
        Some(if s[0] == '-' then -v else v)
      else None
    else if AllDigits(s) then Some(DigitsValue(s))
    else None
  }

  /** ParseInt succeeds exactly when what follows the sign is a non-empty run of digits. */
  lemma ParseIntShape(s: string)
    ensures ParseInt(s).Some? <==> |Unsigned(s)| > 0 && AllDigits(Unsigned(s))
  {
  }

  const MinInt64: int := -0x8000_0000_0000_0000
  const MaxInt64: int := 0x7FFF_FFFF_FFFF_FFFF

  predicate IsInt64(n: int) {
    MinInt64 <= n <= MaxInt64
  }

  const MaxUint64: int := 0xFFFF_FFFF_FFFF_FFFF

  /** The run of decimal digits `s` starts with. */
  function LeadingDigits(s: string): (d: string)
    ensures |d| <= |s| && d == s[..|d|] && AllDigits(d)
    ensures |d| < |s| ==> !IsDigit(s[|d|])
  {
    if |s| == 0 || !IsDigit(s[0]) then ""
    else
      var rest := LeadingDigits(s[1..]);
      assert ([s[0]] + rest)[1..] == rest;
      [s[0]] + rest
  }

  /** The leading digit run of digits followed by a non-digit is those digits. */
  lemma {:induction false} LeadingRun(d: string, rest: string)
    requires AllDigits(d) && |rest| > 0 && !IsDigit(rest[0])
    ensures LeadingDigits(d + rest) == d
    decreases |d|
  {
    if |d| > 0 {
      assert (d + rest)[1..] == d[1..] + rest;
      LeadingRun(d[1..], rest);
    } else {
      assert (d + rest)[0] == rest[0];
    }
  }

  /** `s` without a leading '+' or '-'. */
  function Unsigned(s: string): (u: string)
    ensures |s| > 0 && (s[0] == '+' || s[0] == '-') ==> u == s[1..]
    ensures |s| == 0 || (s[0] != '+' && s[0] != '-') ==> u == s
  {
    if |s| > 0 && (s[0] == '+' || s[0] == '-') then s[1..] else s
  }

  /**
   * The digits right after the sign are worth more than the largest uint64,
   * whatever follows them: strconv then stops with a range error before it
   * looks at anything else.
   */
  predicate OverflowsUint64(s: string) {
    DigitsValue(LeadingDigits(Unsigned(s))) > MaxUint64
  }

  /**
   * The digit loop of strconv.ParseUint(s, 10, 64) from position `i`, `n`
   * being the value of s[..i]. A byte that is not a digit stops it with
   * ErrSyntax; a digit that would take the value past the largest uint64
   * stops it with that bound and ErrRange. Go tests the second in two steps
   * (`n >= cutoff`, then `n1 > maxVal` with wrap-around); on unbounded
   * integers they are the single comparison below.
   */
  function ScanDigits(s: string, i: nat, n: nat): Ret<int>
    requires i <= |s|
    decreases |s| - i
  {
    if i == |s| then Ret(n, None)
    else if !IsDigit(s[i]) then Ret(0, Some(NumSyntax))
    else
      var n1 := n * 10 + (s[i] as int - '0' as int);
      if n1 > MaxUint64 then Ret(MaxUint64, Some(NumRange))
      else ScanDigits(s, i + 1, n1)
  }

  /** A prefix of a digit string is worth no more than the whole string. */
  lemma {:induction false} DigitsPrefixLe(d: string, k: nat)
    requires AllDigits(d) && k <= |d|
    ensures DigitsValue(d[..k]) <= DigitsValue(d)
    decreases |d|
  {
    if k < |d| {
      var init := d[..|d| - 1];
      assert init[..k] == d[..k];
      DigitsPrefixLe(init, k);
      assert DigitsValue(d) >= DigitsValue(init) * 10;
    } else {
      assert d[..k] == d;
    }
  }

  /**
   * What the digit loop returns, in terms of the leading digit run L: the
   * bound with ErrRange when L overflows, else ErrSyntax when something
   * follows L, else the value of the whole string.
   */
  lemma {:induction false} ScanDigitsResult(s: string, i: nat, n: nat)
    requires i <= |LeadingDigits(s)|
    requires n == DigitsValue(s[..i]) && n <= MaxUint64
    ensures DigitsValue(LeadingDigits(s)) > MaxUint64 ==> ScanDigits(s, i, n) == Ret(MaxUint64, Some(NumRange))
    ensures DigitsValue(LeadingDigits(s)) <= MaxUint64 && |LeadingDigits(s)| < |s| ==> ScanDigits(s, i, n) == Ret(0, Some(NumSyntax))
    ensures DigitsValue(LeadingDigits(s)) <= MaxUint64 && |LeadingDigits(s)| == |s| ==> ScanDigits(s, i, n) == Ret(DigitsValue(s), None)
    decreases |s| - i
  {
    var l := LeadingDigits(s);
    if i == |s| {
      assert l == s && s[..i] == s;
    } else if !IsDigit(s[i]) {
      assert |l| == i;
      assert l == s[..i];
    } else {
      assert |l| > i;
      var n1 := n * 10 + (s[i] as int - '0' as int);
      assert s[..i + 1][..i] == s[..i];
      assert n1 == DigitsValue(s[..i + 1]);
      if n1 > MaxUint64 {
        assert l[..i + 1] == s[..i + 1];
        DigitsPrefixLe(l, i + 1);
      } else {
        ScanDigitsResult(s, i + 1, n1);
      }
    }
  }

  /**
   * strconv.ParseUint(s, 10, 64): an empty string is a syntax error;
   * otherwise the digit loop, so an overflowing digit run is reported as a
   * range error even when junk follows it.
   */
  function ParseUint64(s: string): (r: Ret<int>)
    ensures r.err.None? <==> |s| > 0 && AllDigits(s) && DigitsValue(s) <= MaxUint64
    ensures r.err.None? ==> r.value == DigitsValue(s)
    ensures r.err == Some(NumRange) <==> DigitsValue(LeadingDigits(s)) > MaxUint64
    ensures r.err == Some(NumRange) ==> r.value == MaxUint64
    ensures r.err.Some? && r.err != Some(NumRange) ==> r == Ret(0, Some(NumSyntax))
  {
    if s == "" then Ret(0, Some(NumSyntax))
    else
      assert s[..0] == "";
      ScanDigitsResult(s, 0, 0);
      var l := LeadingDigits(s);
      assert |l| == |s| ==> l == s;
      assert |l| < |s| ==> !AllDigits(s);
      ScanDigits(s, 0, 0)
  }

  /**
   * strconv.ParseInt(s, 10, 64) (and Atoi and ParseInt(s, 10, 0) on a 64-bit
   * platform): the sign is taken off and the rest read by ParseUint. Its
   * syntax error gives 0 with ErrSyntax; a magnitude too large for int64,
   * including ParseUint's own overflow, gives the bound on the side of the
   * sign with ErrRange. So a digit run past 2^64-1 is a range error even
   * when junk follows it.
   */
  function ParseInt64(s: string): (r: Ret<int>)
    ensures r.err.None? <==> ParseInt(s).Some? && IsInt64(ParseInt(s).value)
    ensures r.err.None? ==> r.value == ParseInt(s).value
    ensures r.err == Some(NumSyntax) <==> ParseInt(s).None? && !OverflowsUint64(s)
    ensures r.err == Some(NumRange) <==> OverflowsUint64(s) || (ParseInt(s).Some? && !IsInt64(ParseInt(s).value))
    ensures r.err == Some(NumSyntax) ==> r.value == 0
    ensures r.err == Some(NumRange) ==> r.value == (if |s| > 0 && s[0] == '-' then MinInt64 else MaxInt64)
    ensures IsInt64(r.value)
  {
    if s == "" then Ret(0, Some(NumSyntax))
    else
      var neg := s[0] == '-';
      var u := ParseUint64(Unsigned(s));
      ParseIntShape(s);
      assert AllDigits(Unsigned(s)) ==> LeadingDigits(Unsigned(s)) == Unsigned(s);
      if u.err == Some(NumSyntax) then Ret(0, Some(NumSyntax))
      else if !neg && u.value > MaxInt64 then Ret(MaxInt64, Some(NumRange))
      else if neg && u.value > -MinInt64 then Ret(MinInt64, Some(NumRange))
      else Ret(if neg then -u.value else u.value, None)
  }

  /** The decimal digits of a natural number, with no leading zero. */
  function FormatNat(n: nat): (s: string)
    ensures |s| >= 1 && AllDigits(s)
    ensures DigitsValue(s) == n
    ensures |s| > 1 ==> s[0] != '0'
    decreases n
  {
    if n < 10 then [DigitChar(n)]
    else
      var s := FormatNat(n / 10) + [DigitChar(n % 10)];
      assert s[..|s| - 1] == FormatNat(n / 10);
      s
  }

  /** The %d verb of fmt: a '-' for negative numbers, then the digits. */
  function FormatInt(n: int): string
  {
    if n < 0 then "-" + FormatNat(-n) else FormatNat(n)
  }

  /** Parsing a formatted integer gives it back, and without error inside the 64-bit range. */
  lemma ParseFormat(n: int)
    ensures ParseInt(FormatInt(n)) == Some(n)
    ensures IsInt64(n) ==> ParseInt64(FormatInt(n)) == Ret(n, None)
  {
    if n < 0 {
      assert FormatInt(n)[1..] == FormatNat(-n);
    }
  }

  /** Formatting writes a '-' before the digits of a negative number and nothing before those of others. */
  lemma UnsignedFormat(n: int, junk: string)
    ensures Unsigned(FormatInt(n) + junk) == FormatNat(if n < 0 then -n else n) + junk
  {
    var digits := FormatNat(if n < 0 then -n else n);
    var s := FormatInt(n) + junk;
    if n < 0 {
      assert FormatInt(n) == "-" + digits;
      assert s[0] == '-';
      assert s[1..] == digits + junk;
    } else {
      assert FormatInt(n) == digits;
      assert s[0] == digits[0] && IsDigit(digits[0]);
      assert Unsigned(s) == s;
    }
  }

  /** A formatted number followed by a non-digit: its sign comes off, and its digits are the leading run. */
  lemma FormatThenJunk(n: int, junk: string)
    requires |junk| > 0 && !IsDigit(junk[0])
    ensures LeadingDigits(Unsigned(FormatInt(n) + junk)) == FormatNat(if n < 0 then -n else n)
    ensures ParseInt(FormatInt(n) + junk).None?
  {
    var digits := FormatNat(if n < 0 then -n else n);
    UnsignedFormat(n, junk);
    LeadingRun(digits, junk);
    assert (digits + junk)[|digits|] == junk[0];
    ParseIntShape(FormatInt(n) + junk);
  }

  /**
   * A number followed by junk fails to parse with a syntax error when the
   * number fits in a uint64 and with a range error when it does not.
   */
  lemma ParseNumberThenJunk(n: int, junk: string)
    requires |junk| > 0 && !IsDigit(junk[0])
    ensures ParseInt64(FormatInt(n) + junk).err == Some(if -MaxUint64 <= n <= MaxUint64 then NumSyntax else NumRange)
  {
    FormatThenJunk(n, junk);
    assert OverflowsUint64(FormatInt(n) + junk) <==> !(-MaxUint64 <= n <= MaxUint64);
  }

  /**
   * strconv.ParseBool: the spellings "1", "t", "T", "TRUE", "true", "True"
   * and "0", "f", "F", "FALSE", "false", "False"; anything else is an error.
   */
  function ParseBool(s: string): (r: Option<bool>)
    ensures r == Some(true) <==> s in {"1", "t", "T", "TRUE", "true", "True"}
    ensures r == Some(false) <==> s in {"0", "f", "F", "FALSE", "false", "False"}
  {
    if s in {"1", "t", "T", "TRUE", "true", "True"} then Some(true)
    else if s in {"0", "f", "F", "FALSE", "false", "False"} then Some(false)
    else None
  }
}

=== FILE: view.dfy ===
/**
 * The view package: view/client_error.go (the body of a 4xx response and the
 * validation reason it may carry) and view/response.go (a status, a header
 * and a body, with constructors for the common responses).
 *
 * Go's Response has value semantics except for its header map, which is
 * shared between copies; here every response is an immutable value.
 */
module View {
  import opened Wrappers
  import opened Sql
  import opened Http

  // ---------------------------------------------------------------------
  // view/client_error.go
  // ---------------------------------------------------------------------

  /**
   * Why a request was unprocessable. `legacy` is the unexported (and
   * deprecated) `message`, read by GetMessage; `message` is the exported
   * `Message`, which is not part of the JSON. The two are independent.
   */
  datatype Reason = Reason(legacy: string, message: string, field: string, code: string)

  /** The body of a 4xx response; the last three members come from Stripe's error shape. */
  datatype ClientError = ClientError(message: string, reason: Option<Reason>, code: string, param: string, errorType: string)

  /** A ClientError with only its message set. */
  function Message(msg: string): (e: ClientError)
    ensures e.message == msg && e.reason.None? && e.code == "" && e.param == "" && e.errorType == ""
  {
    ClientError(msg, None, "", "", "")
  }

  /** NewReason: GetMessage gives "Validation failed"; every exported field is empty. */
  function NewReason(): (r: Reason)
    ensures GetMessage(r) == "Validation failed"
    ensures r.message == "" && r.field == "" && r.code == ""
  {
    Reason("Validation failed", "", "", "")
  }

  /** NewInvalid: GetMessage gives `m`; every exported field is empty. */
  function NewInvalid(m: string): (r: Reason)
    ensures GetMessage(r) == m
    ensures r.message == "" && r.field == "" && r.code == ""
  {
    Reason(m, "", "", "")
  }

  /** GetMessage: the unexported message. */
  function GetMessage(r: Reason): string {
    r.legacy
  }

  /** SetMessage: replaces the unexported message and nothing else. */
  function SetMessage(r: Reason, msg: string): (r': Reason)
    ensures GetMessage(r') == msg
    ensures r'.message == r.message && r'.field == r.field && r'.code == r.code
  {
    r.(legacy := msg)
  }

  /** Get and set are inverse: setting what was read changes nothing, and only the last set counts. */
  lemma GetSetMessage(r: Reason, a: string, b: string)
    ensures SetMessage(r, GetMessage(r)) == r
    ensures SetMessage(SetMessage(r, a), b) == SetMessage(r, b)
    ensures NewInvalid(a) == SetMessage(NewReason(), a)
  {
  }

  // ---------------------------------------------------------------------
  // view/response.go
  // ---------------------------------------------------------------------

  /** The `interface{}` body: nil, a ClientError, or any other value, held as its JSON text. */
  datatype Body = NilBody | ErrorBody(err: ClientError) | Payload(json: string)

  datatype Response = Response(statusCode: int, header: Header, body: Body)

  const ContentType: string := "Content-Type"
  const Json: string := "application/json; charset=utf-8"

  /** The header every constructor but NewUnauthorizedBasic starts from. */
  const JsonHeader: Header := map[ContentType := [Json]]

  /** NewResponse: 200, a JSON Content-Type and nothing else, and a nil body. */
  function NewResponse(): (r: Response)
    ensures r.statusCode == StatusOK && r.body == NilBody
    ensures r.header.Keys == {ContentType} && Values(r.header, ContentType) == [Json]
  {
    Response(StatusOK, Set(map[], ContentType, Json), NilBody)
  }

  /** SetBody: the body replaced, status and header kept. */
  function SetBody(r: Response, b: Body): (r': Response)
    ensures r'.body == b && r'.statusCode == r.statusCode && r'.header == r.header
  {
    r.(body := b)
  }

  /**
   * NoCache: appends "no-cache", "no-store" and "must-revalidate" to
   * Cache-Control and "no-cache" to Pragma; every other header, the status and
   * the body are unchanged.
   */
  function NoCache(r: Response): (r': Response)
    ensures Values(r'.header, "Cache-Control") == Values(r.header, "Cache-Control") + ["no-cache", "no-store", "must-revalidate"]
    ensures Values(r'.header, "Pragma") == Values(r.header, "Pragma") + ["no-cache"]
    ensures forall k | k != "Cache-Control" && k != "Pragma" :: Values(r'.header, k) == Values(r.header, k)
    ensures r'.statusCode == r.statusCode && r'.body == r.body
  {
    var h := Add(r.header, "Cache-Control", "no-cache");
    var h := Add(h, "Cache-Control", "no-store");
    var h := Add(h, "Cache-Control", "must-revalidate");
    var h := Add(h, "Pragma", "no-cache");
    r.(header := h)
  }

  /** NoCache on a fresh response: the JSON Content-Type plus exactly the caching headers. */
  lemma NoCacheFresh()
    ensures NoCache(NewResponse()).header ==
      map[ContentType := [Json], "Cache-Control" := ["no-cache", "no-store", "must-revalidate"], "Pragma" := ["no-cache"]]
  {
    var start := NewResponse().header;
    var h := NoCache(NewResponse()).header;
    assert Values(start, "Cache-Control") == [] && Values(start, "Pragma") == [];
    assert Values(h, "Cache-Control") == ["no-cache", "no-store", "must-revalidate"];
    assert Values(h, "Pragma") == ["no-cache"];
    assert Values(h, ContentType) == [Json];
    assert h.Keys == {ContentType, "Cache-Control", "Pragma"};
  }

  /** An error response in the JSON envelope: the status and a ClientError carrying only the message. */
  function ErrorResponse(code: int, msg: string): (r: Response)
    ensures r.statusCode == code && r.header == JsonHeader && r.body == ErrorBody(Message(msg))
  {
    NewResponse().(statusCode := code, body := ErrorBody(Message(msg)))
  }

  /** NewNoContent: NewResponse with status 204. */
  function NewNoContent(): (r: Response)
    ensures r.statusCode == StatusNoContent && r.header == JsonHeader && r.body == NilBody
  {
    NewResponse().(statusCode := StatusNoContent)
  }

  /** NewNotFound: 404 with the message "Not Found". */
  function NewNotFound(): (r: Response)
    ensures r.statusCode == StatusNotFound && r.header == JsonHeader
    ensures r.body == ErrorBody(Message("Not Found"))
  {
    NewResponse().(statusCode := StatusNotFound, body := ErrorBody(Message("Not Found")))
  }

  /** NewUnauthorized: 401, with "Requires authorization." standing in for an empty message. */
  function NewUnauthorized(msg: string): (r: Response)
    ensures r.statusCode == StatusUnauthorized && r.header == JsonHeader
    ensures r.body.ErrorBody? && r.body.err.message != ""
    ensures msg != "" ==> r.body == ErrorBody(Message(msg))
    ensures msg == "" ==> r.body == ErrorBody(Message("Requires authorization."))
  {
    ErrorResponse(StatusUnauthorized, if msg == "" then "Requires authorization." else msg)
  }

  /**
   * NewUnauthorizedBasic: 401 whose header map is replaced by a literal holding
   * only the key "WWW-Authenticate" (as written, not canonicalised) with the
   * value Basic, so it has no Content-Type; the body carries the reason and
   * its GetMessage.
   */
  function NewUnauthorizedBasic(reason: Reason): (r: Response)
    ensures r.statusCode == StatusUnauthorized
    ensures r.header == map["WWW-Authenticate" := ["Basic"]]
    ensures r.header.Keys == {"WWW-Authenticate"} && Values(r.header, "WWW-Authenticate") == ["Basic"]
    ensures Get(r.header, ContentType) == ""
    ensures r.body == ErrorBody(ClientError(GetMessage(reason), Some(reason), "", "", ""))
  {
    NewResponse().(
      header := map["WWW-Authenticate" := ["Basic"]],
      statusCode := StatusUnauthorized,
      body := ErrorBody(ClientError(GetMessage(reason), Some(reason), "", "", "")))
  }

  /** NewForbidden: 403 with the JSON header and a ClientError carrying the message unchanged (even ""). */
  function NewForbidden(msg: string): (r: Response)
    ensures r.statusCode == StatusForbidden && r.header == JsonHeader
    ensures r.body == ErrorBody(Message(msg)) && r.body.err.message == msg
  {
    ErrorResponse(StatusForbidden, msg)
  }

  /** NewBadRequest: 400, with "Problems parsing JSON" standing in for an empty message. */
  function NewBadRequest(msg: string): (r: Response)
    ensures r.statusCode == StatusBadRequest && r.header == JsonHeader
    ensures r.body.ErrorBody? && r.body.err.message != ""
    ensures msg != "" ==> r.body == ErrorBody(Message(msg))
    ensures msg == "" ==> r.body == ErrorBody(Message("Problems parsing JSON"))
  {
    ErrorResponse(StatusBadRequest, if msg == "" then "Problems parsing JSON" else msg)
  }

  /**
   * NewUnprocessable: 422 carrying the reason, with the body message taken
   * from the exported Message field, not from GetMessage.
   */
  function NewUnprocessable(reason: Reason): (r: Response)
    ensures r.statusCode == StatusUnprocessableEntity && r.header == JsonHeader
    ensures r.body == ErrorBody(ClientError(reason.message, Some(reason), "", "", ""))
  {
    NewResponse().(statusCode := StatusUnprocessableEntity, body := ErrorBody(ClientError(reason.message, Some(reason), "", "", "")))
  }

  /**
   * Because the two messages are independent, a reason made by NewReason or
   * NewInvalid gives an unprocessable response with an empty message, while
   * NewUnauthorizedBasic shows its text.
   */
  lemma UnprocessableIgnoresGetMessage(m: string)
    ensures NewUnprocessable(NewReason()).body.err.message == ""
    ensures NewUnprocessable(NewInvalid(m)).body.err.message == ""
    ensures NewUnauthorizedBasic(NewInvalid(m)).body.err.message == m
  {
  }

  /** NewTooManyRequests: 429 with the JSON header and a ClientError carrying the message unchanged (even ""). */
  function NewTooManyRequests(msg: string): (r: Response)
    ensures r.statusCode == StatusTooManyRequests && r.header == JsonHeader
    ensures r.body == ErrorBody(Message(msg)) && r.body.err.message == msg
  {
    ErrorResponse(StatusTooManyRequests, msg)
  }

  /** NewInternalError: 500 with the JSON header and a ClientError carrying the message unchanged (even ""). */
  function NewInternalError(msg: string): (r: Response)
    ensures r.statusCode == StatusInternalServerError && r.header == JsonHeader
    ensures r.body == ErrorBody(Message(msg)) && r.body.err.message == msg
  {
    ErrorResponse(StatusInternalServerError, msg)
  }

  /** NewDBFailure: no matching row is the NewNotFound response; any other error is 500 with its text. */
  function NewDBFailure(err: DbError): (r: Response)
    ensures err == ErrNoRows ==> r == NewNotFound()
    ensures err.Other? ==> r.statusCode == StatusInternalServerError && r.header == JsonHeader && r.body == ErrorBody(Message(err.text))
    ensures r.statusCode == StatusNotFound <==> err == ErrNoRows
  {
    match err
    case ErrNoRows => NewNotFound()
    case Other(text) => NewInternalError(text)
  }

  /** Every error constructor yields an error status and a ClientError body. */
  lemma ConstructorsGiveErrorStatus(msg: string, reason: Reason, err: DbError)
    ensures IsErrorStatus(NewNotFound().statusCode) && NewNotFound().body.ErrorBody?
    ensures IsErrorStatus(NewUnauthorized(msg).statusCode) && NewUnauthorized(msg).body.ErrorBody?
    ensures IsErrorStatus(NewUnauthorizedBasic(reason).statusCode) && NewUnauthorizedBasic(reason).body.ErrorBody?
    ensures IsErrorStatus(NewForbidden(msg).statusCode) && NewForbidden(msg).statusCode == 403
    ensures IsErrorStatus(NewBadRequest(msg).statusCode) && NewBadRequest(msg).body.ErrorBody?
    ensures IsErrorStatus(NewUnprocessable(reason).statusCode) && NewUnprocessable(reason).body.ErrorBody?
    ensures IsErrorStatus(NewTooManyRequests(msg).statusCode) && NewTooManyRequests(msg).statusCode == 429
    ensures IsErrorStatus(NewInternalError(msg).statusCode) && NewInternalError(msg).statusCode == 500
    ensures IsErrorStatus(NewDBFailure(err).statusCode) && NewDBFailure(err).body.ErrorBody?
  {
  }
}

=== FILE: wrappers.dfy ===
/** Optional values: Go's `nil` results and the `(value, ok)` idiom. */
module Wrappers {

  datatype Option<+T> = None | Some(value: T) {

    /** Returns the wrapped value, or `default` for None. */
    function GetOr(default: T): T {
      match this
      case Some(v) => v
      case None => default
    }
  }
}

/** The Go `error` values the modelled code produces or passes on. */
module Errors {
  import opened Wrappers

  datatype Error =
      /** An error built from a message with errors.New or fmt.Errorf. */
    | Errorf(text: string)
      /** The enum package's ErrIncompatible sentinel (declared in a file outside this model). */
    | ErrIncompatible
      /**
       * json.Unmarshal into a string met a number, boolean, array or object
       * (a *json.UnmarshalTypeError).
       */
    | JsonNotString
      /** strconv rejected the text as a number or a boolean (strconv.ErrSyntax). */
    | NumSyntax
      /** strconv read a number outside the 64-bit range (strconv.ErrRange). */
    | NumRange

  /** A Go `(value, error)` result pair. */
  datatype Ret<T> = Ret(value: T, err: Option<Error>)
}

/** What database/sql hands to a Scanner, and the errors the drivers report. */
module Sql {
  import opened Wrappers

  /** The dynamic type of the `src interface{}` argument of Scan. */
  datatype Src =
    | SNull               // nil: a SQL NULL
    | SBytes(b: string)   // []byte, seen through string(b)
    | SString(s: string)  // string
    | SOther              // any other driver value (int64, float64, time.Time, ...)

  /**
   * What a text column written from a Valuer result reads back as:
   * nil is stored as NULL, a string comes back as bytes.
   */
  function Stored(v: Option<string>): (src: Src)
    ensures v.None? <==> src.SNull?
    ensures v.Some? ==> src == SBytes(v.value)
  {
    match v
    case None => SNull
    case Some(s) => SBytes(s)
  }

  /** An error returned from the data layer. */
  datatype DbError =
    | ErrNoRows            // the sql.ErrNoRows sentinel
    | Other(text: string)  // any other error, with the text of its Error()
}
